=== FILE: README.md ===
# Launcher grid: searchable item display, in Dafny

This project models the logic of the desktop shell's application launcher
grid: the generic searchable display (`GenericDisplay`), its application
specialisation (`AppDisplay`), the capacity computation of the grid layout,
and the re-arm arithmetic of the panel clock. Everything is a pure function
over immutable datatypes; the registry of installed applications, the
category lookup, the name collation and the wall-clock reading are inputs.

Modules, following the source's structure:

- `Selection` — the grid: its children, each an id (`items`) and the actor
  that shows it (`actors`, named by creation number, so a destroyed actor's
  name never comes back), and `selected`, the `_selectedIndex` with -1 for
  none. Its operations are `_selectIndex`, `selectUp`, `selectDown`,
  `selectFirstItem`, `selectLastItem`, `unsetSelected`, `hasSelected`,
  `hasItems`, `activateSelected`, `doActivate`'s selection update,
  `_findDisplayedByIndex`, `_getIndexOfDisplayedActor`, `_addDisplayItem`,
  `_removeDisplayItem` and `_removeAllDisplayItems`. `_selectIndex`
  unhighlights the old selection first. That call raises a `TypeError` when
  the stored index is set but no child sits there. Single-step operations
  return `None` then, and nothing changes. Compound ones return an `Outcome`:
  the state reached when the exception left, and a `raised` flag.
- `Apps` — `GAppInfo` as a record with optional description and executable,
  `DEFAULT_APPLICATIONS`, `_isInfoMatching`, the cache (`_allItems`,
  `_categories`, `_appsStale`) with `_refreshCache`, and `_setDefaultList`'s
  loop.
- `Search` — `_doSearchFilter`: term split, match counts, ranking with
  `_compareItems`, truncation.
- `Display` — the whole display: `_setDefaultList`, `_doSearchFilter`,
  `_redisplay`, `setSearch`, `show`, `hide`, `updateDimensions`, the
  monitor's `changed` handler, the key, click and launch events, and an
  invariant kept by every event.
- `Layout` — `_maxItems` and the grid height from `_setDimensionsAndMaxItems`.
- `Clock` — `Panel._updateClock`'s shown minute and timer delay.
- `Text`, `Sorting`, `Seqs`, `Arith`, `Wrappers` — string operations
  (`split(/\s+/)`, `indexOf`, ASCII `toLowerCase`), a stable insertion sort,
  and small helpers.

Behaviour of the code that the model keeps, though a reader might expect otherwise:

- An empty grid can hold a selection. `selectDown` on an empty, unselected
  grid stores 0, because -1 equals `count - 1` (`Selection.SelectDownOnEmpty`),
  and `_removeAllDisplayItems` on an empty grid leaves that 0 in place. The
  next `selectUp`, `selectDown`, `unsetSelected`, or `doActivate` when an
  item has been activated, then raises in `_selectIndex` (`genericDisplay.js:508-510`), and so does the same call
  again. Only `_redisplay` gets out of it: clearing the empty grid does not
  raise, and it stores -1 directly (`genericDisplay.js:380`) before
  `selectFirstItem`. `Display.Inv` allows an index that shows no
  item only on an empty grid. Every event keeps that (`Display.StepKeepsInv`),
  and `Display.StepRaises` lists exactly the events that raise.
- `_removeDisplayItem` of the selected child when it is the last of several
  leaves the index one past the end, because the test at
  `genericDisplay.js:348` is strict. Its only caller,
  `_removeAllDisplayItems`, removes the first child each time, so through the
  public operations that case does not arise (`Selection.RemoveFrontKeepsRange`).
- Only the empty string takes the default path. A query of white space alone
  is split into two empty terms, and each of them matches every item
  (`Search.BlankSearchMatchesAll`).
- `_compareItems` uses `localeCompare`, which lets distinct names tie. The
  model therefore takes the name order as a total preorder `nameLe`, not a
  strict order.
- `doActivate` finds the activated item by its actor. A rebuild destroys
  every actor and makes new ones, so an item activated before a rebuild is
  not found after it, and -1 is stored
  (`Selection.ActivatedItemLostByRebuild`, `Display.LaunchAfterRebuildUnselects`).

## Model

| member | source | states |
|---|---|---|
| `Seqs.Position` | tmp/gsdoc/js/ui/genericDisplay.js:342-345 | the index of the removed item's child is the first position holding its id; ids are the keys of `_displayedItems`, so no id occurs twice |
| `Text.Lower` | tmp/gsdoc/js/ui/genericDisplay.js:210 | `toLowerCase` keeps the length, leaves no upper-case letter, changes exactly the upper-case letters and maps each to its lower-case partner |
| `Text.IndexOf` | tmp/gsdoc/js/ui/appDisplay.js:247-249 | `indexOf` is non-negative exactly when the term occurs in the string, and then it is the first occurrence |
| `Text.Split` | tmp/gsdoc/js/ui/genericDisplay.js:440 | `split(/\s+/)` returns at least one term, no term holds white space, only the first and last term can be empty, and the first is empty exactly when the query is empty or starts with white space |
| `Text.SplitContent` | tmp/gsdoc/js/ui/genericDisplay.js:440 | the terms joined by single spaces are the query with every run of white space collapsed to one space, so no character is lost or invented |
| `Text.SplitLastTerm` | tmp/gsdoc/js/ui/genericDisplay.js:440 | the last term is empty exactly when the query is empty or ends with white space |
| `Text.SplitJoin` | tmp/gsdoc/js/ui/genericDisplay.js:440 | every list of terms the split can produce is recovered by splitting its space-joined form |
| `Sorting.Sort` | tmp/gsdoc/js/ui/genericDisplay.js:459 | sorting permutes the matched ids |
| `Sorting.SortSorted` | tmp/gsdoc/js/ui/genericDisplay.js:459-468 | under a total preorder the sort result is ordered and a permutation of its input |
| `Sorting.SortDistinct` | tmp/gsdoc/js/ui/genericDisplay.js:455-459 | sorting ids without repeats yields ids without repeats |
| `Selection.IndexOfActor` | tmp/gsdoc/js/ui/genericDisplay.js:497-504 | the position of the first child that is the actor, -1 exactly when the actor is not a child |
| `Selection.FindDisplayedByIndex` | tmp/gsdoc/js/ui/genericDisplay.js:477-493 | an item is found exactly for an index inside the grid; it is the id and the actor of that child, and that actor is found again at the index |
| `Selection.SelectIndex` | tmp/gsdoc/js/ui/genericDisplay.js:507-517 | raises exactly when the stored index is set and shows no child; otherwise the new index is stored as given, in range or not, and nothing else changes |
| `Selection.Queries` | tmp/gsdoc/js/ui/genericDisplay.js:270-282 | `hasItems` holds exactly when a child sits at index 0, `hasSelected` exactly when `activateSelected` emits, and a set, in-range selection shows an item |
| `Selection.SelectUp` | tmp/gsdoc/js/ui/genericDisplay.js:232-241 | raises exactly when the stored index shows no item; otherwise from index 0 or -1 the selection goes to `count - 1` and reports false, from above it moves one up and reports true, and it stays in range |
| `Selection.SelectDown` | tmp/gsdoc/js/ui/genericDisplay.js:246-255 | raises exactly when the stored index shows no item; otherwise from `count - 1` the selection goes to 0 and reports false, and from elsewhere it moves one down and reports true |
| `Selection.SelectDownOnEmpty` | tmp/gsdoc/js/ui/genericDisplay.js:249-253 | on an empty, unselected grid `selectDown` stores 0; from there `selectUp` and `selectDown` raise, and clearing the empty grid keeps the 0 |
| `Selection.SelectUpDownInverse` | tmp/gsdoc/js/ui/genericDisplay.js:232-255 | on an in-range selection, up then down and down then up return to the start, with matching wrap flags |
| `Selection.SelectDownCycle` | tmp/gsdoc/js/ui/genericDisplay.js:246-255 | `k` steps down from index `i` never raise and land on `(i + k) mod count` |
| `Selection.SelectUpCycle` | tmp/gsdoc/js/ui/genericDisplay.js:232-241 | `k` steps up from index `i` never raise and land on `(i - k) mod count` |
| `Selection.SelectFirstItem` | tmp/gsdoc/js/ui/genericDisplay.js:258-261 | nothing changes on an empty grid; otherwise it raises exactly when the stored index shows no item, and else selects index 0 |
| `Selection.SelectLastItem` | tmp/gsdoc/js/ui/genericDisplay.js:264-267 | nothing changes on an empty grid; otherwise it raises exactly when the stored index shows no item, and else selects index `count - 1` |
| `Selection.UnsetSelected` | tmp/gsdoc/js/ui/genericDisplay.js:275-277 | raises exactly when the stored index shows no item; otherwise nothing is selected afterwards and the children are unchanged |
| `Selection.ActivateSelected` | tmp/gsdoc/js/ui/genericDisplay.js:221-227 | activation happens exactly when something is selected; an in-range selection activates the selected child's id and actor, and an index that shows no child activates `null` |
| `Selection.DoActivate` | tmp/gsdoc/js/ui/genericDisplay.js:285-292 | nothing happens without an activated item; otherwise it raises exactly when the stored index shows no item, and else selects the child holding the activated actor, or -1 when that actor is no longer a child |
| `Selection.ActivateThenDoActivate` | tmp/gsdoc/js/ui/genericDisplay.js:221-292 | activating the selected child and then acting on it, with nothing in between, keeps the grid as it was |
| `Selection.AddDisplayItem` | tmp/gsdoc/js/ui/genericDisplay.js:321-339 | a new id is appended after the shown ones with a new actor, a repeated id is ignored, and the selection is untouched |
| `Selection.AddAll` | tmp/gsdoc/js/ui/genericDisplay.js:470-472 | adding ids keeps the selection, appends exactly those ids when they are new and distinct, and every actor it adds is newer than all earlier ones |
| `Selection.SelectionAfterRemoval` | tmp/gsdoc/js/ui/genericDisplay.js:346-350 | the last child unsets the selection, a child above it moves it up by one, any other leaves it; it raises exactly when the first two cases meet an index that shows no item |
| `Selection.RemoveDisplayItem` | tmp/gsdoc/js/ui/genericDisplay.js:342-355 | the id's child leaves the grid and nothing else is removed; it raises, changing nothing, exactly when the id is not shown, or the selection must move and the stored index shows no item |
| `Selection.RemoveKeepsSelectedItem` | tmp/gsdoc/js/ui/genericDisplay.js:342-355 | removing any child other than the selected one keeps the same id and actor selected |
| `Selection.AddRemoveInverse` | tmp/gsdoc/js/ui/genericDisplay.js:321-355 | removing an item just added restores the grid, except that one more actor was made, when the selection was in range |
| `Selection.RemoveFrontKeepsRange` | tmp/gsdoc/js/ui/genericDisplay.js:358-361 | removing the first child keeps the selection in range exactly when it was |
| `Selection.RemoveAll` | tmp/gsdoc/js/ui/genericDisplay.js:358-361 | raises, leaving the grid untouched, exactly when there is a child and the stored index shows none; otherwise no child is left and the selection is -1 once any child was removed |
| `Selection.ActivatedItemLostByRebuild` | tmp/gsdoc/js/ui/genericDisplay.js:285-292 | after the children are all removed and new ones added, the selection is -1, the actor activated before is not found, and `doActivate` stores -1 |
| `Apps.CategoryMatches` | tmp/gsdoc/js/ui/appDisplay.js:266-273 | true exactly when some lowercased category contains the term |
| `Apps.IsInfoMatching` | tmp/gsdoc/js/ui/appDisplay.js:243-276 | a null or empty term matches; otherwise the term matches exactly when it occurs in the lowercased name, the description if present, the executable if present, or some category; a missing executable does not stop the category test |
| `Apps.LastShown` | tmp/gsdoc/js/ui/appDisplay.js:187-194 | the entry stored under an id is a shown application with that id; there is none exactly when no shown application has the id |
| `Apps.LastShownIsLast` | tmp/gsdoc/js/ui/appDisplay.js:187-194 | the entry stored under an id is the last shown application with that id: a later one would have overwritten it |
| `Apps.Load` | tmp/gsdoc/js/ui/appDisplay.js:184-200 | the rebuilt cache holds exactly the ids of shown applications, with the last one of each id, each with its category list, and clears the stale flag |
| `Apps.RefreshCache` | tmp/gsdoc/js/ui/appDisplay.js:180-201 | nothing changes unless stale; a refresh stores exactly the shown applications under their ids, each with a (possibly empty) category list, and clears the flag |
| `Apps.MarkStale` | tmp/gsdoc/js/ui/appDisplay.js:158-160 | a change notification sets the stale flag and nothing else |
| `Apps.RefreshIdempotent` | tmp/gsdoc/js/ui/appDisplay.js:180-183 | a second refresh is a no-op, whatever the registry says by then |
| `Apps.RefreshAfterChangeIsWholesale` | tmp/gsdoc/js/ui/appDisplay.js:184-186 | after a change notification the refreshed cache depends only on the registry |
| `Apps.Present` | tmp/gsdoc/js/ui/appDisplay.js:214-219 | the curated ids that the cache knows, without repeats |
| `Apps.DefaultFrom` | tmp/gsdoc/js/ui/appDisplay.js:212-220 | the loop adds at most `maxItems` ids, each a curated id that the cache knows |
| `Apps.DefaultFromIsPrefix` | tmp/gsdoc/js/ui/appDisplay.js:210-220 | the default-list loop keeps exactly the first `maxItems` curated ids that are present |
| `Apps.DefaultApplicationsDistinct` | tmp/gsdoc/js/ui/appDisplay.js:29-45 | no curated id is listed twice |
| `Apps.DefaultList` | tmp/gsdoc/js/ui/appDisplay.js:208-221 | the default list is the curated ids present in the cache, in curated order, at most `maxItems`; absent ids are skipped |
| `Search.Count` | tmp/gsdoc/js/ui/genericDisplay.js:441-453 | an item's count is at most the number of terms, positive exactly when some term matches, and full exactly when every term matches |
| `Search.Record` | tmp/gsdoc/js/ui/genericDisplay.js:443-452 | one term's pass records exactly the ids matching it that were not yet recorded |
| `Search.Gather` | tmp/gsdoc/js/ui/genericDisplay.js:441-453 | the passes over all terms record exactly the stored ids matching some term, each once |
| `Search.MatchedList` | tmp/gsdoc/js/ui/genericDisplay.js:455-458 | the matched list has no repeats and holds exactly the stored ids with a positive count |
| `Search.NameOf` | tmp/gsdoc/js/ui/appDisplay.js:229-233 | the name compared for a stored id is the name of its stored application |
| `Search.Rank` | tmp/gsdoc/js/ui/genericDisplay.js:459-468 | a higher count comes strictly first, and equal counts are ordered as the names under `nameLe` |
| `Search.RankIsTotalPreorder` | tmp/gsdoc/js/ui/genericDisplay.js:459-468 | comparing by count, then by names, is a total preorder when the name comparison is |
| `Search.SortedByRank` | tmp/gsdoc/js/ui/genericDisplay.js:460-467 | along a ranked list counts never increase, and equal counts follow the name order |
| `Search.SearchResult` | tmp/gsdoc/js/ui/genericDisplay.js:433-473 | the display shows `min(maxItems, #matched)` ids without repeats, each stored and matching between 1 and all of the terms |
| `Search.SearchResultSorted` | tmp/gsdoc/js/ui/genericDisplay.js:459-472 | the shown ids are in non-increasing count order, with ties in name order |
| `Search.SearchResultIsTop` | tmp/gsdoc/js/ui/genericDisplay.js:459-472 | no matched id left off outranks a shown one, so the shown ids are the best `maxItems` |
| `Search.SplitBlank` | tmp/gsdoc/js/ui/genericDisplay.js:440 | a non-empty query of white space splits into two empty terms |
| `Search.BlankSearchMatchesAll` | tmp/gsdoc/js/ui/genericDisplay.js:440-453 | with such a query every stored item matches both terms, so every stored item is matched |
| `Layout.SetDimensionsAndMaxItems` | tmp/gsdoc/js/ui/genericDisplay.js:423-429 | the grid height is a multiple of 50, at most the given height, and less than 50 below it; `maxItems` is rows times columns |
| `Layout.CapacityIsMaximal` | tmp/gsdoc/js/ui/genericDisplay.js:426-428 | no number of rows that fits the height gives more items or a taller grid |
| `Clock.Remaining` | tmp/gsdoc/js/ui/panel.js:202-203 | the raw remaining time lies in 1..60000 ms |
| `Clock.UpdateClock` | tmp/gsdoc/js/ui/panel.js:199-213 | the next minute is shown exactly when under 500 ms remain; the delay lies in 500..60499 ms; elapsed plus delay is 60000 or, when advanced, 120000 ms |
| `Clock.TimerFiresWhenShownMinuteEnds` | tmp/gsdoc/js/ui/panel.js:196-213 | the timer fires at the start of a minute, which is the minute after the one shown (wrapping at midnight) |
| `Display.Create` | tmp/gsdoc/js/ui/appDisplay.js:148-171 | a new display is hidden, shows, selects and activates nothing, has the empty search string and a loaded cache, and satisfies the invariant |
| `Display.SetDefaultList` | tmp/gsdoc/js/ui/appDisplay.js:208-221 | raises exactly when clearing the old grid raises, keeping what clearing left; otherwise the grid shows the default list through new actors |
| `Display.DoSearchFilter` | tmp/gsdoc/js/ui/genericDisplay.js:433-473 | raises exactly when clearing the old grid raises, keeping what clearing left; otherwise the grid shows the search result through new actors |
| `Display.Redisplay` | tmp/gsdoc/js/ui/genericDisplay.js:364-385 | a hidden display is unchanged; otherwise the cache is refreshed and it raises exactly when the old grid has a child and an index that shows none; else the grid shows the default list for the empty string and the search result otherwise, through new actors, and the selection is 0 if one existed and the list is non-empty, else -1 |
| `Display.SetSearch` | tmp/gsdoc/js/ui/genericDisplay.js:209-212 | the lowercased text is stored; a shown display refreshes its cache and rebuilds its grid for the text, and every other field (activated item, shown flag, capacity, columns) is kept; it raises exactly when the old grid has a child and an index that shows none, leaving that grid; otherwise the selection is 0 when one existed and the list is non-empty, else -1 |
| `Display.Show` | tmp/gsdoc/js/ui/genericDisplay.js:304-308 | rebuilds are switched on and one is made at once, raising exactly when the old grid has a child and an index that shows none, leaving that grid; only the shown flag, the cache and the grid change; otherwise the selection is 0 when one existed and the list is non-empty, else -1 |
| `Display.Hide` | tmp/gsdoc/js/ui/genericDisplay.js:311-315 | the grid is cleared; only when that does not raise are rebuilds switched off, and nothing else changes |
| `Display.UpdateDimensions` | tmp/gsdoc/js/ui/genericDisplay.js:295-301 | the columns and capacity are recomputed; a shown display refreshes its cache and rebuilds at the new capacity, keeping search, activated item and shown flag; it raises exactly when the old grid has a child and an index that shows none, leaving that grid; otherwise it shows no more than the new capacity, and the selection is 0 when one existed and the list is non-empty, else -1 |
| `Display.AppsChanged` | tmp/gsdoc/js/ui/appDisplay.js:159-166 | a shown display reloads the cache from the registry and rebuilds, keeping search, capacity, columns, activated item and shown flag; it raises exactly when the old grid has a child and an index that shows none, leaving that grid; otherwise the selection is 0 when one existed and the list is non-empty, else -1; a hidden one keeps the cache stale and its grid untouched |
| `Display.ListingStored` | tmp/gsdoc/js/ui/genericDisplay.js:374-377 | every rebuilt list holds stored ids only, without repeats, at most `maxItems` of them |
| `Display.RedisplayKeepsInv` | tmp/gsdoc/js/ui/genericDisplay.js:364-385 | a rebuild from a grid whose index shows no item only when empty does not raise and re-establishes the display invariant |
| `Display.StepKeepsInv` | tmp/gsdoc/js/ui/genericDisplay.js:209-315 | every public operation keeps the display invariant |
| `Display.StepRaises` | tmp/gsdoc/js/ui/genericDisplay.js:221-292 | under the invariant an event raises exactly when it is `selectUp`, `selectDown`, `unsetSelected` or `doActivate` with an activated item, from an index that shows no item; a raising event changes nothing |
| `Display.RedisplayIdempotent` | tmp/gsdoc/js/ui/genericDisplay.js:364-385 | a second rebuild right after a first raises exactly when the first did and shows the same ids with the same selection; only the actors are new |
| `Display.EnterStoresSelected` | tmp/gsdoc/js/ui/genericDisplay.js:221-227 | activating an in-range selection stores the selected child's id and actor as the activated item |
| `Display.EnterThenLaunch` | tmp/gsdoc/js/ui/genericDisplay.js:221-292 | activating and then launching, with nothing in between, changes nothing |
| `Display.LaunchAfterRebuildUnselects` | tmp/gsdoc/js/ui/genericDisplay.js:285-292 | through the `Enter`, `Typed` and `Launch` events: the search set between activating and launching keeps the activated item but replaces every actor, so launching does not raise and clears the selection |
| `Display.RebuildForgetsActors` | tmp/gsdoc/js/ui/genericDisplay.js:321-355 | an item whose actor predates a rebuild is not among the new children, so `doActivate` stores -1 |

## Left out

- Colours, fonts, highlighting (`markSelected`), `_setItemInfo`, `getDragActor` and icon lookup: toolkit calls with no logic to model. An actor is modelled only by its identity.
- `launch` and the `activate`/`activated`/`redisplayed` signals: foreign calls and event emission. Only their effect on the selection and the activated item is modelled.
- `Selection.SelectIndex`: takes indices of at least -1 only. Below -1, `markSelected(true)` would raise after the index is stored, but no caller passes such an index, and the stored index never goes below -1.
- `_grid.show()`, `_grid.hide()`, `add_actor` and `destroy`: toolkit calls. Only their effect on the children (which actors exist, in which order) is modelled.
- `_columnWidth` and the display width: float division used only for drawing.
- `Gio.app_info_get_all` and `Shell.get_categories_for_desktop_file`: modelled as the input `Apps.Registry`. An id missing from the category map gets the empty list, as the real call returns on failure.
- `localeCompare`: modelled as the parameter `nameLe`, a total preorder on names. `Search.SearchResultSorted` and `Search.SearchResultIsTop` assume this.
- `Sorting.Sort`: `Array.prototype.sort` of that era did not promise stability. The model uses a stable insertion sort, which gives one allowed order of items that tie on both count and name.
- `Text.Lower`: `toLowerCase` is modelled on ASCII letters only. There is no Unicode case mapping.
- `Layout.SetDimensionsAndMaxItems`: the height is a natural number. Fractional and negative heights are not modelled.
- `Clock.UpdateClock`: `Date`, time zones and daylight-saving changes, `toLocaleFormat` and `Mainloop.timeout_add` scheduling are outside the model. The wall-clock reading is an input.
- Object key enumeration: ids that look like array indices would be visited first by `for ... in`. Desktop-file ids never do, so `Apps.Cache` keeps plain insertion order, and `_removeAllDisplayItems` visits the children front to back, in the order they were added.
- Logging (missing executable, repeated add): no observable state.
- The rest of `panel.js` (buttons, tray, status menu, struts): host wiring.

=== FILE: apps.dfy ===
/**
 * The application specialisation of the display (`AppDisplay`): the
 * application records, the matching test, the cache rebuilt from the
 * application registry when stale, and the curated default list.
 */
module Apps {
  import opened Wrappers
  import opened Seqs
  import opened Text
  import opened Selection

  /** What the display reads from a `GAppInfo`. */
  datatype AppInfo = AppInfo(
    id: Id,
    name: string,
    description: Option<string>,
    executable: Option<string>,
    shouldShow: bool)

  /**
   * The registry at refresh time: what `Gio.app_info_get_all` returns, in
   * order, and what `Shell.get_categories_for_desktop_file` answers per id
   * (an id it has no entry for gets the empty list, as on failure).
   */
  datatype Registry = Registry(apps: seq<AppInfo>, categoriesFor: map<Id, seq<string>>)

  function CategoriesFor(reg: Registry, id: Id): seq<string> {
    if id in reg.categoriesFor then reg.categoriesFor[id] else []
  }

  /** The applications shown when there is no search string, most popular first. */
  const DEFAULT_APPLICATIONS: seq<Id> := [
    "mozilla-firefox.desktop",
    "gnome-terminal.desktop",
    "evolution.desktop",
    "gedit.desktop",
    "mozilla-thunderbird.desktop",
    "rhythmbox.desktop",
    "epiphany.desktop",
    "xchat.desktop",
    "openoffice.org-1.9-writer.desktop",
    "emacs.desktop",
    "gnome-system-monitor.desktop",
    "openoffice.org-1.9-calc.desktop",
    "eclipse.desktop",
    "openoffice.org-1.9-impress.desktop",
    "vncviewer.desktop"
  ]

  // ---------------------------------------------------------------- matching

  /** JavaScript truthiness of a possibly-null string: present and non-empty. */
  predicate Truthy(s: Option<string>) {
    s.Some? && s.value != []
  }

  /** Some lowercased field of the application contains `term`. */
  ghost predicate FieldsContain(app: AppInfo, categories: seq<string>, term: string) {
    || IsSubstring(term, Lower(app.name))
    || (app.description.Some? && IsSubstring(term, Lower(app.description.value)))
    || (app.executable.Some? && IsSubstring(term, Lower(app.executable.value)))
    || (exists i :: 0 <= i < |categories| && IsSubstring(term, Lower(categories[i])))
  }

  /** The category loop of `_isInfoMatching`: some lowercased category contains `term`. */
  function CategoryMatches(categories: seq<string>, term: string): (r: bool)
    ensures r <==> exists i :: 0 <= i < |categories| && IsSubstring(term, Lower(categories[i]))
  {
    if categories == [] then false
    else if IndexOf(Lower(categories[0]), term) >= 0 then true
    else
      var r := CategoryMatches(categories[1..], term);
      assert forall i :: 0 < i < |categories| ==> categories[i] == categories[1..][i - 1];
      r
  }

  /**
   * `_isInfoMatching`: a null or empty term matches everything; otherwise the
   * term must occur in the lowercased name, description, executable or one of
   * the categories. A missing executable is only logged, so the categories are
   * still tried. The term itself is not lowercased here.
   */
  function IsInfoMatching(app: AppInfo, categories: seq<string>, search: Option<string>): (r: bool)
    ensures r <==> search.None? || search.value == [] || FieldsContain(app, categories, search.value)
  {
    if search.None? || search.value == [] then true
    else
      var term := search.value;
      EmptySubstring([], term);
      if IndexOf(Lower(app.name), term) >= 0 then true
      else if Truthy(app.description) && IndexOf(Lower(app.description.value), term) >= 0 then true
      else if app.executable.Some? && IndexOf(Lower(app.executable.value), term) >= 0 then true
      else CategoryMatches(categories, term)
  }

  // ------------------------------------------------------------------- cache

  /**
   * `_allItems`, `_categories` and `_appsStale`. `order` is the order in which
   * the ids became keys of `_allItems`, which is the order `for ... in` visits them.
   */
  datatype Cache = Cache(
    order: seq<Id>,
    items: map<Id, AppInfo>,
    categories: map<Id, seq<string>>,
    stale: bool)
  {
    /** Every stored application is filed under its own id and has a category list. */
    ghost predicate Valid() {
      && Distinct(order)
      && (forall id :: id in order <==> id in items)
      && (forall id :: id in items <==> id in categories)
      && (forall id :: id in items ==> items[id].id == id)
    }
  }

  /** The cache as the constructor leaves it before its first refresh. */
  const Initial := Cache([], map[], map[], true)

  /** What `_categories[id]` holds, the empty list when `id` has no entry. */
  function CategoriesOf(c: Cache, id: Id): seq<string> {
    if id in c.categories then c.categories[id] else []
  }

  /** The application with `id` that `should_show()` and comes last in `apps`, which is the one stored under `id`. */
  function LastShown(apps: seq<AppInfo>, id: Id): (r: Option<AppInfo>)
    ensures r.Some? ==> r.value.shouldShow && r.value.id == id && r.value in apps
    ensures r.None? <==> forall i :: 0 <= i < |apps| ==> !(apps[i].shouldShow && apps[i].id == id)
  {
    if apps == [] then None
    else if apps[|apps| - 1].shouldShow && apps[|apps| - 1].id == id then Some(apps[|apps| - 1])
    else
      var r := LastShown(apps[..|apps| - 1], id);
      assert forall i :: 0 <= i < |apps| - 1 ==> apps[i] == apps[..|apps| - 1][i];
      r
  }

  /** The entry `LastShown` gives is the last shown application with that id: none after it qualifies. */
  lemma {:induction false} LastShownIsLast(apps: seq<AppInfo>, id: Id)
    ensures LastShown(apps, id).Some? ==>
      exists i :: 0 <= i < |apps| && apps[i] == LastShown(apps, id).value &&
        forall j :: i < j < |apps| ==> !(apps[j].shouldShow && apps[j].id == id)
    decreases |apps|
  {
    if apps == [] {
    } else if apps[|apps| - 1].shouldShow && apps[|apps| - 1].id == id {
      assert apps[|apps| - 1] == LastShown(apps, id).value;
    } else {
      var init := apps[..|apps| - 1];
      assert LastShown(apps, id) == LastShown(init, id);
      LastShownIsLast(init, id);
      if LastShown(init, id).Some? {
        var i :| 0 <= i < |init| && init[i] == LastShown(init, id).value &&
          forall j :: i < j < |init| ==> !(init[j].shouldShow && init[j].id == id);
        assert apps[i] == init[i];
        forall j | i < j < |apps|
          ensures !(apps[j].shouldShow && apps[j].id == id)
        {
          if j < |apps| - 1 {
            assert apps[j] == init[j];
          }
        }
      }
    }
  }

  /** One turn of the refresh loop: hidden applications are skipped. */
  function Store(c: Cache, app: AppInfo, reg: Registry): Cache {
    if !app.shouldShow then c
    else
      Cache(
        if app.id in c.items then c.order else c.order + [app.id],
        c.items[app.id := app],
        c.categories[app.id := CategoriesFor(reg, app.id)],
        c.stale)
  }

  /** The refresh loop over `apps`, from an empty cache. */
  function Load(apps: seq<AppInfo>, reg: Registry): (r: Cache)
    ensures !r.stale && r.Valid()
    ensures forall id :: id in r.items <==> LastShown(apps, id).Some?
    ensures forall id :: id in r.items ==> r.items[id] == LastShown(apps, id).value
    ensures forall id :: id in r.items ==> r.categories[id] == CategoriesFor(reg, id)
  {
    if apps == [] then Cache([], map[], map[], false)
    else
      var c := Load(apps[..|apps| - 1], reg);
      var app := apps[|apps| - 1];
      var r := Store(c, app, reg);
      assert Distinct(r.order) by {
        if app.shouldShow && app.id !in c.items {
          assert app.id !in c.order;
        }
      }
      r
  }

  /**
   * `_refreshCache`: nothing happens unless the cache is stale; otherwise it is
   * rebuilt from scratch out of the registry, holding exactly the applications
   * that should be shown, each with its (possibly empty) category list.
   */
  function RefreshCache(c: Cache, reg: Registry): (r: Cache)
    ensures !c.stale ==> r == c
    ensures c.stale ==> !r.stale && r.Valid()
    ensures c.stale ==> forall id :: id in r.items <==> exists i :: 0 <= i < |reg.apps| && reg.apps[i].shouldShow && reg.apps[i].id == id
    ensures c.stale ==> forall id :: id in r.items ==> r.items[id].shouldShow && r.items[id] in reg.apps
    ensures c.stale ==> forall id :: id in r.items ==> r.categories[id] == CategoriesFor(reg, id)
  {
    if !c.stale then c else Load(reg.apps, reg)
  }

  /** The monitor's `changed` handler, before it redisplays. */
  function MarkStale(c: Cache): (r: Cache)
    ensures r.stale
    ensures r.order == c.order && r.items == c.items && r.categories == c.categories
  {
    c.(stale := true)
  }

  /** A refreshed cache is left alone by the next refresh, whatever the registry says by then. */
  lemma RefreshIdempotent(c: Cache, reg: Registry, later: Registry)
    ensures RefreshCache(RefreshCache(c, reg), later) == RefreshCache(c, reg)
  {
  }

  /** A refresh after a change notification depends only on the registry, never on the old contents. */
  lemma RefreshAfterChangeIsWholesale(c: Cache, c': Cache, reg: Registry)
    ensures RefreshCache(MarkStale(c), reg) == RefreshCache(MarkStale(c'), reg)
  {
  }

  // ------------------------------------------------------------ default list

  /** The ids of `ids` present in `items`, in the order of `ids`. */
  function Present(ids: seq<Id>, items: map<Id, AppInfo>): (r: seq<Id>)
    ensures forall id :: id in r <==> id in ids && id in items
    ensures Distinct(ids) ==> Distinct(r)
  {
    if ids == [] then []
    else
      var rest := Present(ids[1..], items);
      assert forall id :: id in ids <==> id == ids[0] || id in ids[1..];
      if ids[0] in items then
        assert Distinct(ids) ==> ids[0] !in ids[1..];
        [ids[0]] + rest
      else rest
  }

  /** The loop of `_setDefaultList`: walk `ids`, keep those present, stop after `budget` of them. */
  function DefaultFrom(ids: seq<Id>, items: map<Id, AppInfo>, budget: nat): (r: seq<Id>)
    ensures |r| <= budget
    ensures forall id :: id in r ==> id in ids && id in items
    decreases |ids|
  {
    if ids == [] || budget == 0 then []
    else if ids[0] in items then [ids[0]] + DefaultFrom(ids[1..], items, budget - 1)
    else DefaultFrom(ids[1..], items, budget)
  }

  /** The loop keeps exactly the first `budget` present ids. */
  lemma {:induction false} DefaultFromIsPrefix(ids: seq<Id>, items: map<Id, AppInfo>, budget: nat)
    ensures DefaultFrom(ids, items, budget) == Take(Present(ids, items), budget)
    decreases |ids|
  {
    if ids != [] && budget != 0 {
      var rest := Present(ids[1..], items);
      if ids[0] in items {
        DefaultFromIsPrefix(ids[1..], items, budget - 1);
        assert Present(ids, items) == [ids[0]] + rest;
        assert Take([ids[0]] + rest, budget) == [ids[0]] + Take(rest, budget - 1);
      } else {
        DefaultFromIsPrefix(ids[1..], items, budget);
        assert Present(ids, items) == rest;
      }
    }
  }

  lemma DefaultApplicationsDistinct()
    ensures Distinct(DEFAULT_APPLICATIONS)
  {
  }

  /**
   * The ids `_setDefaultList` shows: the curated applications the cache knows,
   * in curated order, at most `maxItems` of them; unknown ones are skipped.
   */
  function DefaultList(c: Cache, maxItems: nat): (r: seq<Id>)
    ensures r == Take(Present(DEFAULT_APPLICATIONS, c.items), maxItems)
    ensures |r| <= maxItems && Distinct(r)
    ensures forall id :: id in r ==> id in c.items && id in DEFAULT_APPLICATIONS
  {
    DefaultFromIsPrefix(DEFAULT_APPLICATIONS, c.items, maxItems);
    DefaultApplicationsDistinct();
    DefaultFrom(DEFAULT_APPLICATIONS, c.items, maxItems)
  }
}

=== FILE: arith.dfy ===
/** Facts about Euclidean division that the solver does not find unaided. */
module Arith {

  lemma {:induction false} MulMono(d: int, n: int)
    requires n > 0 && d >= 1
    ensures d * n >= n
    decreases d
  {
    if d > 1 {
      MulMono(d - 1, n);
      assert d * n == (d - 1) * n + n;
    }
  }

  /** Writing `x` as `q * n + r` with `0 <= r < n` fixes both quotient and remainder. */
  lemma DivModUnique(x: int, n: int, q: int, r: int)
    requires n > 0 && 0 <= r < n && x == q * n + r
    ensures x % n == r && x / n == q
  {
    var d := q - x / n;
    assert d * n == x % n - r by {
      assert x == (x / n) * n + x % n;
      assert q * n - (x / n) * n == d * n;
    }
    if d >= 1 {
      MulMono(d, n);
    } else if d <= -1 {
      MulMono(-d, n);
    }
  }

  lemma ModSucc(a: int, n: int)
    requires n > 0
    ensures (a + 1) % n == if a % n == n - 1 then 0 else a % n + 1
  {
    var q := a / n;
    assert a == q * n + a % n;
    if a % n == n - 1 {
      DivModUnique(a + 1, n, q + 1, 0);
    } else {
      DivModUnique(a + 1, n, q, a % n + 1);
    }
  }

  lemma ModPred(a: int, n: int)
    requires n > 0
    ensures (a - 1) % n == if a % n == 0 then n - 1 else a % n - 1
  {
    var q := a / n;
    assert a == q * n + a % n;
    if a % n == 0 {
      DivModUnique(a - 1, n, q - 1, n - 1);
    } else {
      DivModUnique(a - 1, n, q, a % n - 1);
    }
  }

  lemma {:induction false} MulLeMono(a: nat, b: nat, c: nat)
    requires a <= b
    ensures a * c <= b * c
    decreases c
  {
    if c > 0 {
      MulLeMono(a, b, c - 1);
      assert a * c == a * (c - 1) + a;
      assert b * c == b * (c - 1) + b;
    }
  }
}

=== FILE: clock.dfy ===
/**
 * The arithmetic of `Panel._updateClock`: which minute the clock shows and
 * how long until it updates again. The wall-clock reading is an input.
 */
module Clock {
  import opened Arith

  const MINUTE_MS: nat := 60000
  const MINUTES_PER_DAY: nat := 1440
  /** Within this many milliseconds of the next minute, that minute is shown already. */
  const EARLY_MS: nat := 500

  /** The fields of the `Date` read by the update. */
  datatype WallTime = WallTime(hour: nat, minute: nat, second: nat, millis: nat)

  predicate ValidTime(t: WallTime) {
    t.hour < 24 && t.minute < 60 && t.second < 60 && t.millis < 1000
  }

  /** Milliseconds since midnight. */
  function MsOfDay(t: WallTime): nat {
    ((t.hour * 60 + t.minute) * 60 + t.second) * 1000 + t.millis
  }

  /** What the clock shows, as minutes since midnight (`%H:%M`), and the timer it arms. */
  datatype Update = Update(shownMinute: nat, delay: nat, advanced: bool)

  /** `msec_remaining` before the adjustment: milliseconds left in the current minute. */
  function Remaining(t: WallTime): (r: int)
    requires ValidTime(t)
    ensures 1 <= r <= MINUTE_MS
  {
    MINUTE_MS - (1000 * t.second + t.millis)
  }

  /**
   * `_updateClock`: with less than half a second left the next minute is
   * shown and the timer waits a further minute; the delay always lands on the
   * end of the minute shown.
   */
  function UpdateClock(t: WallTime): (u: Update)
    requires ValidTime(t)
    ensures EARLY_MS <= u.delay <= MINUTE_MS + EARLY_MS - 1
    ensures u.advanced <==> Remaining(t) < EARLY_MS
    ensures 1000 * t.second + t.millis + u.delay == if u.advanced then 2 * MINUTE_MS else MINUTE_MS
    ensures u.shownMinute < MINUTES_PER_DAY
  {
    var now := t.hour * 60 + t.minute;
    var remaining := Remaining(t);
    if remaining < EARLY_MS then
      Update((now + 1) % MINUTES_PER_DAY, remaining + MINUTE_MS, true)
    else
      Update(now, remaining, false)
  }

  /**
   * The timer fires exactly at the start of a minute, and that minute is the
   * one after the minute the clock shows (midnight wrapping to 00:00).
   */
  lemma TimerFiresWhenShownMinuteEnds(t: WallTime)
    requires ValidTime(t)
    ensures var u := UpdateClock(t);
            var fire := MsOfDay(t) + u.delay;
            fire % MINUTE_MS == 0 && (fire / MINUTE_MS) % MINUTES_PER_DAY == (u.shownMinute + 1) % MINUTES_PER_DAY
  {
    var u := UpdateClock(t);
    var now := t.hour * 60 + t.minute;
    var step := if u.advanced then 2 else 1;
    var fire := MsOfDay(t) + u.delay;
    assert MsOfDay(t) == now * MINUTE_MS + 1000 * t.second + t.millis;
    assert fire == (now + step) * MINUTE_MS;
    DivModUnique(fire, MINUTE_MS, now + step, 0);
    var a := now + step - 1;
    ModSucc(a, MINUTES_PER_DAY);
    if u.advanced {
      ModSucc(now, MINUTES_PER_DAY);
      assert u.shownMinute == now + 1 || (now == MINUTES_PER_DAY - 1 && u.shownMinute == 0);
    } else {
      DivModUnique(now, MINUTES_PER_DAY, 0, now);
    }
    var s := u.shownMinute;
    assert s == a % MINUTES_PER_DAY;
  }
}

=== FILE: display.dfy ===
/**
 * The application display as a whole: search string, capacity, visibility,
 * cache, grid and activated item, and the public operations. Each operation
 * reports whether it raised; an exception keeps the changes made before it.
 */
module Display {
  import opened Wrappers
  import opened Seqs
  import opened Text
  import opened Selection
  import opened Apps
  import opened Search
  import opened Layout

  datatype State = State(
    search: string,           // `_search`, lowercased by `setSearch`
    columns: nat,             // `_numberOfColumns`
    capacity: Capacity,       // `_maxItems` and the grid height
    shown: bool,              // `_keepDisplayCurrent`
    cache: Cache,
    grid: Grid,
    activated: Option<Item>)  // `_activatedItem`

  /**
   * What holds between operations: the cache is well formed, and not stale
   * while the display is shown; the grid shows stored ids without repeats,
   * through actors of its own, and nothing while hidden. The stored index may
   * show no item only when the grid is empty (see `SelectDownOnEmpty`).
   */
  ghost predicate Inv(d: State) {
    && d.cache.Valid()
    && Distinct(d.grid.items)
    && Fresh(d.grid)
    && (!InRange(d.grid) ==> d.grid.items == [])
    && (forall id :: id in d.grid.items ==> id in d.cache.items)
    && (!d.shown ==> d.grid.items == [])
    && (d.shown ==> !d.cache.stale)
  }

  /** The `AppDisplay` constructor: nothing shown, selected or activated, the cache loaded once. */
  function Create(height: nat, columns: nat, reg: Registry): (d: State)
    ensures Inv(d)
    ensures !d.shown && d.grid == Empty && d.search == [] && d.activated.None?
    ensures d.cache == RefreshCache(Initial, reg) && !d.cache.stale
    ensures d.capacity == SetDimensionsAndMaxItems(height, columns)
  {
    State([], columns, SetDimensionsAndMaxItems(height, columns), false, RefreshCache(Initial, reg), Empty, None)
  }

  /** `_setDefaultList`: empties the grid, then adds the curated applications, each with a new actor. */
  function SetDefaultList(g: Grid, c: Cache, maxItems: nat): (r: Outcome<Grid>)
    ensures r.raised == RemoveAll(g).raised
    ensures r.raised ==> r.state == RemoveAll(g).state
    ensures !r.raised ==> r.state.items == DefaultList(c, maxItems) && r.state.selected == RemoveAll(g).state.selected
    ensures !r.raised ==> forall a :: a in r.state.actors ==> g.created <= a
    ensures Fresh(g) ==> Fresh(r.state)
  {
    var o := RemoveAll(g);
    if o.raised then o
    else
      assert [] + DefaultList(c, maxItems) == DefaultList(c, maxItems);
      Outcome(AddAll(o.state, DefaultList(c, maxItems)), false)
  }

  /** `_doSearchFilter`: empties the grid, then adds the ranked matches, each with a new actor. */
  function DoSearchFilter(g: Grid, c: Cache, search: string, maxItems: nat, nameLe: (string, string) -> bool): (r: Outcome<Grid>)
    ensures r.raised == RemoveAll(g).raised
    ensures r.raised ==> r.state == RemoveAll(g).state
    ensures !r.raised ==> r.state.items == SearchResult(c, search, maxItems, nameLe) && r.state.selected == RemoveAll(g).state.selected
    ensures !r.raised ==> forall a :: a in r.state.actors ==> g.created <= a
    ensures Fresh(g) ==> Fresh(r.state)
  {
    var o := RemoveAll(g);
    var found := SearchResult(c, search, maxItems, nameLe);
    if o.raised then o
    else
      assert [] + found == found;
      Outcome(AddAll(o.state, found), false)
  }

  /** The ids a rebuild shows: the default list for the empty string, the search result for any other. */
  function Listing(c: Cache, search: string, maxItems: nat, nameLe: (string, string) -> bool): seq<Id> {
    if search == [] then DefaultList(c, maxItems) else SearchResult(c, search, maxItems, nameLe)
  }

  /**
   * `_redisplay`: nothing happens while hidden. Otherwise the cache is
   * refreshed and the grid rebuilt; a selection that existed before is
   * cleared directly and moved to the first item. Clearing the old grid
   * raises when it has children and its index shows none; the rebuild then
   * stops there.
   */
  function Redisplay(d: State, reg: Registry, nameLe: (string, string) -> bool): (r: Outcome<State>)
    ensures !d.shown ==> r == Outcome(d, false)
    ensures d.shown ==> r.state == d.(cache := RefreshCache(d.cache, reg), grid := r.state.grid)
    ensures d.shown ==> (r.raised <==> d.grid.items != [] && !InRange(d.grid))
    ensures d.shown && r.raised ==> r.state.grid == RemoveAll(d.grid).state
    ensures d.shown && !r.raised ==> r.state.grid.items == Listing(RefreshCache(d.cache, reg), d.search, d.capacity.maxItems, nameLe)
    ensures d.shown && !r.raised ==> r.state.grid.selected == if HasSelected(d.grid) && r.state.grid.items != [] then 0 else -1
    ensures d.shown && !r.raised ==> forall a :: a in r.state.grid.actors ==> d.grid.created <= a
    ensures Fresh(d.grid) ==> Fresh(r.state.grid)
  {
    if !d.shown then Outcome(d, false)
    else
      var hadSelected := HasSelected(d.grid);
      var c := RefreshCache(d.cache, reg);
      var o :=
        if d.search == [] then SetDefaultList(d.grid, c, d.capacity.maxItems)
        else DoSearchFilter(d.grid, c, d.search, d.capacity.maxItems, nameLe);
      if o.raised then Outcome(d.(cache := c, grid := o.state), true)
      else
        var g := if hadSelected then SelectFirstItem(o.state.(selected := -1)).value else o.state;
        Outcome(d.(cache := c, grid := g), false)
  }

  /** `setSearch`: store the lowercased text and rebuild; nothing else changes but the cache and the grid. */
  function SetSearch(d: State, text: string, reg: Registry, nameLe: (string, string) -> bool): (r: Outcome<State>)
    ensures r.state.search == Lower(text)
    ensures !d.shown ==> r == Outcome(d.(search := Lower(text)), false)
    ensures d.shown ==> r.state == d.(search := Lower(text), cache := RefreshCache(d.cache, reg), grid := r.state.grid)
    ensures d.shown ==> (r.raised <==> d.grid.items != [] && !InRange(d.grid))
    ensures d.shown && r.raised ==> r.state.grid == d.grid
    ensures d.shown && !r.raised ==> r.state.grid.items == Listing(RefreshCache(d.cache, reg), Lower(text), d.capacity.maxItems, nameLe)
    ensures d.shown && !r.raised ==> r.state.grid.selected == if HasSelected(d.grid) && r.state.grid.items != [] then 0 else -1
    ensures d.shown && !r.raised ==> InRange(r.state.grid)
  {
    Redisplay(d.(search := Lower(text)), reg, nameLe)
  }

  /** `show`: rebuilds are switched on and one is made at once. */
  function Show(d: State, reg: Registry, nameLe: (string, string) -> bool): (r: Outcome<State>)
    ensures r.state == d.(shown := true, cache := RefreshCache(d.cache, reg), grid := r.state.grid)
    ensures r.raised <==> d.grid.items != [] && !InRange(d.grid)
    ensures r.raised ==> r.state.grid == d.grid
    ensures !r.raised ==> r.state.grid.items == Listing(RefreshCache(d.cache, reg), d.search, d.capacity.maxItems, nameLe)
    ensures !r.raised ==> r.state.grid.selected == if HasSelected(d.grid) && r.state.grid.items != [] then 0 else -1
  {
    Redisplay(d.(shown := true), reg, nameLe)
  }

  /** `hide`: the grid is emptied, then rebuilds stop; when the emptying raises they do not. */
  function Hide(d: State): (r: Outcome<State>)
    ensures r.raised <==> d.grid.items != [] && !InRange(d.grid)
    ensures r.state == d.(grid := RemoveAll(d.grid).state, shown := r.state.shown)
    ensures r.state.shown == (d.shown && r.raised)
    ensures !r.raised ==> r.state.grid.items == [] && r.state.grid.selected == if d.grid.items == [] then d.grid.selected else -1
  {
    var o := RemoveAll(d.grid);
    if o.raised then Outcome(d.(grid := o.state), true)
    else Outcome(d.(grid := o.state, shown := false), false)
  }

  /** `updateDimensions`: new capacity, then rebuild; nothing else changes but the cache and the grid. */
  function UpdateDimensions(d: State, height: nat, columns: nat, reg: Registry, nameLe: (string, string) -> bool): (r: Outcome<State>)
    ensures r.state.columns == columns && r.state.capacity == SetDimensionsAndMaxItems(height, columns)
    ensures !d.shown ==> r == Outcome(d.(columns := columns, capacity := SetDimensionsAndMaxItems(height, columns)), false)
    ensures d.shown ==>
      r.state == d.(columns := columns, capacity := SetDimensionsAndMaxItems(height, columns), cache := RefreshCache(d.cache, reg), grid := r.state.grid)
    ensures d.shown ==> (r.raised <==> d.grid.items != [] && !InRange(d.grid))
    ensures d.shown && r.raised ==> r.state.grid == d.grid
    ensures d.shown && !r.raised ==>
      r.state.grid.items == Listing(RefreshCache(d.cache, reg), d.search, SetDimensionsAndMaxItems(height, columns).maxItems, nameLe)
    ensures d.shown && !r.raised ==> |r.state.grid.items| <= r.state.capacity.maxItems
    ensures d.shown && !r.raised ==> r.state.grid.selected == if HasSelected(d.grid) && r.state.grid.items != [] then 0 else -1
  {
    Redisplay(d.(columns := columns, capacity := SetDimensionsAndMaxItems(height, columns)), reg, nameLe)
  }

  /** The application monitor's `changed` handler: mark the cache stale, then rebuild; nothing else changes but the cache and the grid. */
  function AppsChanged(d: State, reg: Registry, nameLe: (string, string) -> bool): (r: Outcome<State>)
    ensures !d.shown ==> r == Outcome(d.(cache := MarkStale(d.cache)), false)
    ensures d.shown ==> r.state == d.(cache := RefreshCache(MarkStale(d.cache), reg), grid := r.state.grid)
    ensures d.shown ==> !r.state.cache.stale
    ensures d.shown ==> (r.raised <==> d.grid.items != [] && !InRange(d.grid))
    ensures d.shown && r.raised ==> r.state.grid == d.grid
    ensures d.shown && !r.raised ==>
      r.state.grid.items == Listing(RefreshCache(MarkStale(d.cache), reg), d.search, d.capacity.maxItems, nameLe)
    ensures d.shown && !r.raised ==> r.state.grid.selected == if HasSelected(d.grid) && r.state.grid.items != [] then 0 else -1
  {
    Redisplay(d.(cache := MarkStale(d.cache)), reg, nameLe)
  }

  /** The inputs the display reacts to. */
  datatype Event =
    | Typed(text: string)                  // `setSearch`
    | Opened                               // `show`
    | Closed                               // `hide`
    | Resized(height: nat, columns: nat)   // `updateDimensions`
    | Changed                              // the application monitor's `changed`
    | KeyUp                                // `selectUp`
    | KeyDown                              // `selectDown`
    | First                                // `selectFirstItem`
    | Last                                 // `selectLastItem`
    | Unselect                             // `unsetSelected`
    | Enter                                // `activateSelected`
    | Clicked(index: int)                  // the `activate` signal of the item at `index`
    | Launch                               // `doActivate`

  /** A selection step: the grid it gives, or an exception that changes nothing. */
  function Selecting(d: State, g: Option<Grid>): (r: Outcome<State>)
    ensures r.raised <==> g.None?
    ensures r.raised ==> r.state == d
    ensures !r.raised ==> r.state == d.(grid := g.value)
  {
    match g
    case None => Outcome(d, true)
    case Some(h) => Outcome(d.(grid := h), false)
  }

  function Step(d: State, e: Event, reg: Registry, nameLe: (string, string) -> bool): Outcome<State> {
    match e
    case Typed(text) => SetSearch(d, text, reg, nameLe)
    case Opened => Show(d, reg, nameLe)
    case Closed => Hide(d)
    case Resized(h, cols) => UpdateDimensions(d, h, cols, reg, nameLe)
    case Changed => AppsChanged(d, reg, nameLe)
    case KeyUp => Selecting(d, Up(d.grid))
    case KeyDown => Selecting(d, Down(d.grid))
    case First => Selecting(d, SelectFirstItem(d.grid))
    case Last => Selecting(d, SelectLastItem(d.grid))
    case Unselect => Selecting(d, UnsetSelected(d.grid))
    case Enter =>
      (match ActivateSelected(d.grid)
       case None => Outcome(d, false)
       case Some(a) => Outcome(d.(activated := a), false))
    case Clicked(i) =>
      (match FindDisplayedByIndex(d.grid, i)
       case None => Outcome(d, false)
       case Some(item) => Outcome(d.(activated := Some(item)), false))
    case Launch => Selecting(d, DoActivate(d.grid, d.activated))
  }

  /** The listing holds stored ids only, without repeats, and no more than `maxItems`. */
  lemma ListingStored(c: Cache, search: string, maxItems: nat, nameLe: (string, string) -> bool)
    requires c.Valid()
    ensures Distinct(Listing(c, search, maxItems, nameLe))
    ensures |Listing(c, search, maxItems, nameLe)| <= maxItems
    ensures forall id :: id in Listing(c, search, maxItems, nameLe) ==> id in c.items
  {
  }

  /** A rebuild of a display whose index shows no item only when empty does not raise, and re-establishes the invariant. */
  lemma RedisplayKeepsInv(d: State, reg: Registry, nameLe: (string, string) -> bool)
    requires d.cache.Valid() && Fresh(d.grid)
    requires !InRange(d.grid) ==> d.grid.items == []
    requires !d.shown ==> Inv(d)
    ensures !Redisplay(d, reg, nameLe).raised
    ensures Inv(Redisplay(d, reg, nameLe).state)
  {
    if d.shown {
      ListingStored(RefreshCache(d.cache, reg), d.search, d.capacity.maxItems, nameLe);
    }
  }

  /** Every event keeps the display invariant. */
  lemma StepKeepsInv(d: State, e: Event, reg: Registry, nameLe: (string, string) -> bool)
    requires Inv(d)
    ensures Inv(Step(d, e, reg, nameLe).state)
  {
    match e
    case Typed(text) => RedisplayKeepsInv(d.(search := Lower(text)), reg, nameLe);
    case Opened => RedisplayKeepsInv(d.(shown := true), reg, nameLe);
    case Resized(h, cols) =>
      RedisplayKeepsInv(d.(columns := cols, capacity := SetDimensionsAndMaxItems(h, cols)), reg, nameLe);
    case Changed => RedisplayKeepsInv(d.(cache := MarkStale(d.cache)), reg, nameLe);
    case _ =>
  }

  /**
   * Under the invariant only the selection keys and `doActivate` raise, and
   * only from an index that shows no item; a raising event changes nothing.
   */
  lemma StepRaises(d: State, e: Event, reg: Registry, nameLe: (string, string) -> bool)
    requires Inv(d)
    ensures Step(d, e, reg, nameLe).raised <==>
      !InRange(d.grid) && (e.KeyUp? || e.KeyDown? || e.Unselect? || (e.Launch? && d.activated.Some?))
    ensures Step(d, e, reg, nameLe).raised ==> Step(d, e, reg, nameLe).state == d
  {
  }

  /**
   * A second rebuild right after a first shows the same thing: the cache is
   * no longer stale, the same ids are listed, and the selection is already
   * anchored at the top. Only the actors are new. A first rebuild that
   * raised leaves a grid on which the second raises again.
   */
  lemma RedisplayIdempotent(d: State, reg: Registry, later: Registry, nameLe: (string, string) -> bool)
    ensures var r1 := Redisplay(d, reg, nameLe);
            var r2 := Redisplay(r1.state, later, nameLe);
            && r2.raised == r1.raised
            && r2.state == r1.state.(grid := r2.state.grid)
            && r2.state.grid.items == r1.state.grid.items
            && r2.state.grid.selected == r1.state.grid.selected
  {
    if d.shown {
      RefreshIdempotent(d.cache, reg, later);
      var r1 := Redisplay(d, reg, nameLe);
      if !r1.raised {
        assert InRange(r1.state.grid);
        assert HasSelected(r1.state.grid) <==> HasSelected(d.grid) && r1.state.grid.items != [];
      }
    }
  }

  /** Activating the selected item and acting on it straight away keeps the selection. */
  lemma EnterThenLaunch(d: State, reg: Registry, nameLe: (string, string) -> bool)
    requires Inv(d) && 0 <= d.grid.selected < |d.grid.items|
    ensures var d1 := Step(d, Enter, reg, nameLe).state;
            d1.activated.Some? && Step(d1, Launch, reg, nameLe) == Outcome(d1, false)
  {
    ActivateThenDoActivate(d.grid);
  }

  /**
   * When the search is reset between `activateSelected` (`Enter`) and
   * `doActivate` (`Launch`), as the container does, the rebuild has replaced
   * every actor but keeps the activated item, which is then not found: the
   * selection is cleared.
   */
  lemma LaunchAfterRebuildUnselects(d: State, text: string, reg: Registry, nameLe: (string, string) -> bool)
    requires Inv(d) && d.shown && 0 <= d.grid.selected < |d.grid.items|
    ensures var d1 := Step(d, Enter, reg, nameLe).state;
            var d2 := Step(d1, Typed(text), reg, nameLe);
            && d1.activated == Some(Item(d.grid.items[d.grid.selected], d.grid.actors[d.grid.selected]))
            && !d2.raised
            && d2.state.activated == d1.activated
            && Step(d2.state, Launch, reg, nameLe) == Outcome(d2.state.(grid := d2.state.grid.(selected := -1)), false)
  {
    var item := Item(d.grid.items[d.grid.selected], d.grid.actors[d.grid.selected]);
    assert item.actor in d.grid.actors;
    var d1 := d.(activated := Some(item));
    EnterStoresSelected(d, reg, nameLe);
    RebuildForgetsActors(d1, text, reg, nameLe, item);
    var d2 := SetSearch(d1, text, reg, nameLe);
    TypedAndLaunchSteps(d1, text, reg, nameLe);
    TypedAndLaunchSteps(d2.state, text, reg, nameLe);
  }

  /** `Typed` is `setSearch`, and `Launch` is `doActivate` on the stored item. */
  lemma TypedAndLaunchSteps(d: State, text: string, reg: Registry, nameLe: (string, string) -> bool)
    ensures Step(d, Typed(text), reg, nameLe) == SetSearch(d, text, reg, nameLe)
    ensures Step(d, Launch, reg, nameLe) == Selecting(d, DoActivate(d.grid, d.activated))
  {
  }

  /** `Enter` on an in-range selection stores the selected item as the activated one. */
  lemma EnterStoresSelected(d: State, reg: Registry, nameLe: (string, string) -> bool)
    requires Inv(d) && 0 <= d.grid.selected < |d.grid.items|
    ensures Step(d, Enter, reg, nameLe).state == d.(activated := Some(Item(d.grid.items[d.grid.selected], d.grid.actors[d.grid.selected])))
  {
  }

  /** An item whose actor predates a rebuild is not found after it, and `doActivate` clears the selection. */
  lemma RebuildForgetsActors(d: State, text: string, reg: Registry, nameLe: (string, string) -> bool, item: Item)
    requires d.shown && InRange(d.grid) && item.actor < d.grid.created
    ensures var o := Redisplay(d.(search := Lower(text)), reg, nameLe);
            !o.raised && DoActivate(o.state.grid, Some(item)) == Some(o.state.grid.(selected := -1))
  {
  }
}

=== FILE: layout.dfy ===
/** The part of `_setDimensionsAndMaxItems` that fixes how many items fit. */
module Layout {
  import opened Arith

  /** The height of one display item, in pixels. */
  const ITEM_DISPLAY_HEIGHT: nat := 50

  /** `_maxItems` and the grid height `_height`. */
  datatype Capacity = Capacity(maxItems: nat, height: nat)

  /**
   * Whole rows of item height fit in the available height, and every column
   * holds that many rows; the grid is cut down to those rows.
   */
  function SetDimensionsAndMaxItems(height: nat, columns: nat): (r: Capacity)
    ensures r.height % ITEM_DISPLAY_HEIGHT == 0
    ensures r.height <= height < r.height + ITEM_DISPLAY_HEIGHT
    ensures r.maxItems == (r.height / ITEM_DISPLAY_HEIGHT) * columns
  {
    var rows := height / ITEM_DISPLAY_HEIGHT;
    DivModUnique(rows * ITEM_DISPLAY_HEIGHT, ITEM_DISPLAY_HEIGHT, rows, 0);
    Capacity(rows * columns, rows * ITEM_DISPLAY_HEIGHT)
  }

  /** No larger grid fits: any number of rows that fits the height gives at most `maxItems` items. */
  lemma {:induction false} CapacityIsMaximal(height: nat, columns: nat, rows: nat)
    requires rows * ITEM_DISPLAY_HEIGHT <= height
    ensures rows * columns <= SetDimensionsAndMaxItems(height, columns).maxItems
    ensures rows * ITEM_DISPLAY_HEIGHT <= SetDimensionsAndMaxItems(height, columns).height
  {
    var q := height / ITEM_DISPLAY_HEIGHT;
    assert height == q * ITEM_DISPLAY_HEIGHT + height % ITEM_DISPLAY_HEIGHT;
    MulLeMono(rows, q, columns);
    MulLeMono(rows, q, ITEM_DISPLAY_HEIGHT);
  }
}

=== FILE: search.dfy ===
/**
 * `_doSearchFilter`: split the (already lowercased) search string into terms,
 * count for every stored item how many terms it matches, rank the matched
 * items by that count and then by name, and keep the first `maxItems`.
 */
module Search {
  import opened Wrappers
  import opened Seqs
  import opened Text
  import opened Sorting
  import opened Selection
  import opened Apps

  /** `_isInfoMatching(this._allItems[id], term)`, for an id the store holds. */
  predicate Matches(c: Cache, id: Id, term: string) {
    id in c.items && IsInfoMatching(c.items[id], CategoriesOf(c, c.items[id].id), Some(term))
  }

  /** `matchedItems[id]`: how many of the terms the item matches, a repeated term counting each time. */
  function Count(c: Cache, id: Id, terms: seq<string>): (n: nat)
    ensures n <= |terms|
    ensures n > 0 <==> exists i :: 0 <= i < |terms| && Matches(c, id, terms[i])
    ensures n == |terms| <==> forall i :: 0 <= i < |terms| ==> Matches(c, id, terms[i])
  {
    if terms == [] then 0
    else
      var rest := Count(c, id, terms[1..]);
      assert forall i :: 0 < i < |terms| ==> terms[i] == terms[1..][i - 1];
      (if Matches(c, id, terms[0]) then 1 else 0) + rest
  }

  /** The inner loop for one term: ids matching it, in store order, recorded the first time they match. */
  function Record(ids: seq<Id>, c: Cache, term: string, acc: seq<Id>): (r: seq<Id>)
    ensures Distinct(acc) ==> Distinct(r)
    ensures forall id :: id in r <==> id in acc || (id in ids && Matches(c, id, term))
    decreases |ids|
  {
    if ids == [] then acc
    else
      var acc' := if Matches(c, ids[0], term) && ids[0] !in acc then acc + [ids[0]] else acc;
      assert forall id :: id in ids <==> id == ids[0] || id in ids[1..];
      Record(ids[1..], c, term, acc')
  }

  /** The outer loop over the terms. */
  function Gather(c: Cache, terms: seq<string>, acc: seq<Id>): (r: seq<Id>)
    ensures Distinct(acc) ==> Distinct(r)
    ensures forall id :: id in r <==> id in acc || (id in c.order && exists i :: 0 <= i < |terms| && Matches(c, id, terms[i]))
    decreases |terms|
  {
    if terms == [] then acc
    else
      assert forall i :: 0 < i < |terms| ==> terms[i] == terms[1..][i - 1];
      Gather(c, terms[1..], Record(c.order, c, terms[0], acc))
  }

  /**
   * `matchedList` before sorting: the keys of `matchedItems` in the order they
   * were first set. An id is in it exactly when it matches at least one term.
   */
  function MatchedList(c: Cache, terms: seq<string>): (r: seq<Id>)
    ensures Distinct(r)
    ensures forall id :: id in r <==> id in c.order && Count(c, id, terms) > 0
  {
    Gather(c, terms, [])
  }

  /** `_compareItems` reduced to the names: the name of a stored id. */
  function NameOf(c: Cache, id: Id): (n: string)
    ensures id in c.items ==> n == c.items[id].name
  {
    if id in c.items then c.items[id].name else []
  }

  /**
   * The comparison handed to `sort`, read as "`a` may come before `b`": more
   * matched terms first, equal counts ordered by the names under `nameLe`.
   */
  function Rank(c: Cache, terms: seq<string>, nameLe: (string, string) -> bool): (le: (Id, Id) -> bool)
    ensures forall a, b :: Count(c, a, terms) > Count(c, b, terms) ==> le(a, b) && !le(b, a)
    ensures forall a, b :: Count(c, a, terms) == Count(c, b, terms) ==> (le(a, b) <==> nameLe(NameOf(c, a), NameOf(c, b)))
  {
    (a: Id, b: Id) =>
      || Count(c, a, terms) > Count(c, b, terms)
      || (Count(c, a, terms) == Count(c, b, terms) && nameLe(NameOf(c, a), NameOf(c, b)))
  }

  /** Ranking by count and then by a total preorder on names is itself a total preorder. */
  lemma RankIsTotalPreorder(c: Cache, terms: seq<string>, nameLe: (string, string) -> bool)
    requires TotalPreorder(nameLe)
    ensures TotalPreorder(Rank(c, terms, nameLe))
  {
    var le := Rank(c, terms, nameLe);
    forall x, y ensures le(x, y) || le(y, x) {
      assert nameLe(NameOf(c, x), NameOf(c, y)) || nameLe(NameOf(c, y), NameOf(c, x));
    }
    forall x, y, z | le(x, y) && le(y, z) ensures le(x, z) {
      if Count(c, x, terms) == Count(c, y, terms) == Count(c, z, terms) {
        assert nameLe(NameOf(c, x), NameOf(c, y)) && nameLe(NameOf(c, y), NameOf(c, z));
      }
    }
  }

  /** The ids `_doSearchFilter` displays, in display order. */
  function SearchResult(c: Cache, search: string, maxItems: nat, nameLe: (string, string) -> bool): (r: seq<Id>)
    ensures Distinct(r)
    ensures var m := MatchedList(c, Split(search)); |r| == if maxItems < |m| then maxItems else |m|
    ensures forall id :: id in r ==> id in c.order && 1 <= Count(c, id, Split(search)) <= |Split(search)|
  {
    var terms := Split(search);
    var m := MatchedList(c, terms);
    var sorted := Ranked(c, terms, nameLe);
    SortDistinct(m, Rank(c, terms, nameLe));
    assert forall id :: id in sorted <==> id in m by {
      assert forall id :: id in sorted <==> id in multiset(sorted);
    }
    Take(sorted, maxItems)
  }

  /** The sorted matched list, of which the display shows a prefix. */
  function Ranked(c: Cache, terms: seq<string>, nameLe: (string, string) -> bool): seq<Id> {
    Sort(MatchedList(c, terms), Rank(c, terms, nameLe))
  }

  /** Along a list sorted by `Rank`, counts never increase and equal counts follow the name order. */
  lemma SortedByRank(r: seq<Id>, c: Cache, terms: seq<string>, nameLe: (string, string) -> bool)
    requires Sorted(r, Rank(c, terms, nameLe))
    ensures forall i, j :: 0 <= i < j < |r| ==> Count(c, r[i], terms) >= Count(c, r[j], terms)
    ensures forall i, j :: 0 <= i < j < |r| && Count(c, r[i], terms) == Count(c, r[j], terms) ==>
              nameLe(NameOf(c, r[i]), NameOf(c, r[j]))
  {
  }

  /**
   * The displayed list is ranked: match counts never increase along it and
   * equal counts follow the name order.
   */
  lemma SearchResultSorted(c: Cache, search: string, maxItems: nat, nameLe: (string, string) -> bool)
    requires TotalPreorder(nameLe)
    ensures Sorted(SearchResult(c, search, maxItems, nameLe), Rank(c, Split(search), nameLe))
    ensures var r := SearchResult(c, search, maxItems, nameLe);
            forall i, j :: 0 <= i < j < |r| ==> Count(c, r[i], Split(search)) >= Count(c, r[j], Split(search))
    ensures var r := SearchResult(c, search, maxItems, nameLe);
            forall i, j :: 0 <= i < j < |r| && Count(c, r[i], Split(search)) == Count(c, r[j], Split(search)) ==>
              nameLe(NameOf(c, r[i]), NameOf(c, r[j]))
  {
    var terms := Split(search);
    var le := Rank(c, terms, nameLe);
    var sorted := Ranked(c, terms, nameLe);
    var r := SearchResult(c, search, maxItems, nameLe);
    RankIsTotalPreorder(c, terms, nameLe);
    SortSorted(MatchedList(c, terms), le);
    assert r == sorted[..|r|];
    assert Sorted(r, le) by {
      forall i, j | 0 <= i < j < |r| ensures le(r[i], r[j]) {
        assert r[i] == sorted[i] && r[j] == sorted[j];
      }
    }
    SortedByRank(r, c, terms, nameLe);
  }

  /** No matched item left off the display outranks a displayed one: the display holds the best `maxItems`. */
  lemma SearchResultIsTop(c: Cache, search: string, maxItems: nat, nameLe: (string, string) -> bool)
    requires TotalPreorder(nameLe)
    ensures var r := SearchResult(c, search, maxItems, nameLe);
            forall x, y :: x in r && y in MatchedList(c, Split(search)) && y !in r ==> Rank(c, Split(search), nameLe)(x, y)
  {
    var terms := Split(search);
    var le := Rank(c, terms, nameLe);
    var m := MatchedList(c, terms);
    var sorted := Ranked(c, terms, nameLe);
    var r := SearchResult(c, search, maxItems, nameLe);
    RankIsTotalPreorder(c, terms, nameLe);
    SortSorted(m, le);
    assert r == sorted[..|r|];
    SortedPrefixFirst(sorted, |r|, le);
    assert forall y :: y in m ==> y in sorted by {
      assert forall y :: y in m ==> y in multiset(sorted);
    }
  }

  /** A query of white space only is split into two empty terms. */
  lemma SplitBlank(s: string)
    requires s != [] && forall i :: 0 <= i < |s| ==> IsSpace(s[i])
    ensures Split(s) == [[], []]
  {
  }

  /**
   * A non-empty query of white space takes the search path, and there both
   * (empty) terms match every stored item: every stored item is matched, and
   * the first `maxItems` of them by name are shown.
   */
  lemma BlankSearchMatchesAll(c: Cache, search: string)
    requires c.Valid()
    requires search != [] && forall i :: 0 <= i < |search| ==> IsSpace(search[i])
    ensures forall id :: id in c.order ==> Count(c, id, Split(search)) == 2
    ensures forall id :: id in MatchedList(c, Split(search)) <==> id in c.order
  {
    SplitBlank(search);
  }
}

=== FILE: selection.dfy ===
/**
 * The selection state machine of `GenericDisplay`: the grid's children, each
 * an id and the actor that shows it, and the selected index (-1 for none).
 * `_selectIndex` unhighlights the old selection first, and that raises when
 * the stored index shows no item; the operations below report it. The
 * highlighting itself (`markSelected`) is not modelled.
 */
module Selection {
  import opened Seqs
  import opened Wrappers
  import opened Arith

  type Id = string

  /** An actor, named by its creation number: a destroyed actor's number is never used again. */
  type Actor = nat

  /** A display item: the id it shows and the actor that represents it in the grid. */
  datatype Item = Item(id: Id, actor: Actor)

  /**
   * `items[i]` is the id shown by the grid's `i`-th child and `actors[i]` is
   * that child; `selected` is `_selectedIndex`, stored as given even out of
   * range; `created` counts the actors made so far.
   */
  datatype RawGrid = MkGrid(items: seq<Id>, actors: seq<Actor>, selected: int, created: nat)

  /**
   * Every child has both its id and its actor, and the stored index is never
   * below -1: every index `_selectIndex` is given is at least -1.
   */
  type Grid = g: RawGrid | |g.actors| == |g.items| && g.selected >= -1 witness MkGrid([], [], -1, 0)

  const Empty: Grid := MkGrid([], [], -1, 0)

  /**
   * The state an operation leaves behind and whether it raised. An exception
   * keeps the changes made before it, so `state` is the state at that point.
   */
  datatype Outcome<T> = Outcome(state: T, raised: bool)

  /** The selection designates a shown item, or nothing. */
  predicate InRange(g: Grid) {
    g.selected == -1 || 0 <= g.selected < |g.items|
  }

  /** `hasSelected`. */
  predicate HasSelected(g: Grid) {
    g.selected != -1
  }

  /** `hasItems`. */
  predicate HasItems(g: Grid) {
    |g.items| > 0
  }

  /** Every actor in the grid was made by it, and no actor is shown twice. */
  predicate Fresh(g: Grid) {
    Distinct(g.actors) && forall a :: a in g.actors ==> a < g.created
  }

  /** `_getIndexOfDisplayedActor`: the position of the first child that is `a`, or -1. */
  function IndexOfActor(g: Grid, a: Actor): (r: int)
    ensures -1 <= r < |g.actors|
    ensures r == -1 <==> a !in g.actors
    ensures r >= 0 ==> g.actors[r] == a && forall j :: 0 <= j < r ==> g.actors[j] != a
  {
    if a in g.actors then Position(g.actors, a) else -1
  }

  /**
   * `_findDisplayedByIndex`: the item shown by the child at `index`, or None
   * (`null`) when there is no such child. Its actor is found again at `index`.
   */
  function FindDisplayedByIndex(g: Grid, index: int): (r: Option<Item>)
    ensures r.Some? <==> 0 <= index < |g.items|
    ensures r.Some? ==> r.value.id == g.items[index] && r.value.actor == g.actors[index]
    ensures r.Some? && Fresh(g) ==> IndexOfActor(g, r.value.actor) == index
  {
    if 0 <= index < |g.items| then Some(Item(g.items[index], g.actors[index])) else None
  }

  /**
   * `_selectIndex`: unhighlighting the old selection raises (None) when the
   * stored index is set but no child sits there; otherwise `index` is stored
   * as given, in range or not, and nothing else changes.
   */
  function SelectIndex(g: Grid, index: int): (r: Option<Grid>)
    requires index >= -1
    ensures r.Some? <==> InRange(g)
    ensures r.Some? ==> r.value == g.(selected := index)
  {
    if HasSelected(g) && FindDisplayedByIndex(g, g.selected).None? then None
    else Some(g.(selected := index))
  }

  /**
   * `selectUp`: one step towards the top; `moved` is false when the selection
   * wrapped (or started unselected) and went to the last item.
   */
  function SelectUp(g: Grid): (r: Option<(Grid, bool)>)
    ensures r.Some? <==> InRange(g)
    ensures r.Some? ==> r.value.0 == g.(selected := r.value.0.selected) && InRange(r.value.0)
    ensures r.Some? && r.value.1 ==> r.value.0.selected == g.selected - 1 && r.value.0.selected >= 0
    ensures r.Some? && !r.value.1 ==> r.value.0.selected == |g.items| - 1 && g.selected <= 0
    ensures r.Some? && g.items != [] ==> HasSelected(r.value.0)
  {
    var moved := g.selected > 0;
    match SelectIndex(g, if moved then g.selected - 1 else |g.items| - 1)
    case None => None
    case Some(h) => Some((h, moved))
  }

  /**
   * `selectDown`: one step towards the bottom; wraps to 0 from the last index.
   * On an empty, unselected grid -1 equals `count - 1`, so 0 is stored.
   */
  function SelectDown(g: Grid): (r: Option<(Grid, bool)>)
    ensures r.Some? <==> InRange(g)
    ensures r.Some? ==> r.value.0 == g.(selected := r.value.0.selected)
    ensures r.Some? && r.value.1 ==> r.value.0.selected == g.selected + 1 && r.value.0.selected != |g.items|
    ensures r.Some? && !r.value.1 ==> r.value.0.selected == 0 && g.selected == |g.items| - 1
    ensures r.Some? && g.items != [] ==> InRange(r.value.0) && HasSelected(r.value.0)
  {
    var wraps := g.selected == |g.items| - 1;
    match SelectIndex(g, if wraps then 0 else g.selected + 1)
    case None => None
    case Some(h) => Some((h, !wraps))
  }

  /** `selectFirstItem`: nothing happens on an empty grid. */
  function SelectFirstItem(g: Grid): (r: Option<Grid>)
    ensures r.None? <==> g.items != [] && !InRange(g)
    ensures g.items == [] ==> r == Some(g)
    ensures r.Some? && g.items != [] ==> r.value == g.(selected := 0) && InRange(r.value)
  {
    if HasItems(g) then SelectIndex(g, 0) else Some(g)
  }

  /** `selectLastItem`: nothing happens on an empty grid. */
  function SelectLastItem(g: Grid): (r: Option<Grid>)
    ensures r.None? <==> g.items != [] && !InRange(g)
    ensures g.items == [] ==> r == Some(g)
    ensures r.Some? && g.items != [] ==> r.value == g.(selected := |g.items| - 1) && InRange(r.value)
  {
    if HasItems(g) then SelectIndex(g, |g.items| - 1) else Some(g)
  }

  /** `unsetSelected`. */
  function UnsetSelected(g: Grid): (r: Option<Grid>)
    ensures r.Some? <==> InRange(g)
    ensures r.Some? ==> r.value == g.(selected := -1) && !HasSelected(r.value)
  {
    SelectIndex(g, -1)
  }

  /**
   * `activateSelected`: None when nothing is selected (no `activated` signal);
   * otherwise the item that becomes `_activatedItem`, itself None (`null`)
   * when the index shows no item.
   */
  function ActivateSelected(g: Grid): (r: Option<Option<Item>>)
    ensures r.Some? <==> HasSelected(g)
    ensures r.Some? && InRange(g) ==> r.value == Some(Item(g.items[g.selected], g.actors[g.selected]))
    ensures HasSelected(g) && !InRange(g) ==> r == Some(None)
  {
    if HasSelected(g) then Some(FindDisplayedByIndex(g, g.selected)) else None
  }

  /**
   * The two queries read from the children: `hasItems` holds exactly when a
   * child sits at index 0, `hasSelected` exactly when `activateSelected`
   * emits, and an in-range selection that is set shows an item.
   */
  lemma Queries(g: Grid)
    ensures HasItems(g) <==> FindDisplayedByIndex(g, 0).Some?
    ensures HasSelected(g) <==> ActivateSelected(g).Some?
    ensures InRange(g) && HasSelected(g) ==> HasItems(g) && FindDisplayedByIndex(g, g.selected).Some?
  {
  }

  /**
   * The selection update of `doActivate`: select the position of the activated
   * item's actor, -1 when that actor is no longer a child. Nothing happens when
   * no item was activated; None when `_selectIndex` raises. Launching is not
   * modelled.
   */
  function DoActivate(g: Grid, activated: Option<Item>): (r: Option<Grid>)
    ensures activated.None? ==> r == Some(g)
    ensures activated.Some? ==> (r.Some? <==> InRange(g))
    ensures activated.Some? && r.Some? ==> r.value == g.(selected := r.value.selected)
    ensures activated.Some? && r.Some? ==> (r.value.selected == -1 <==> activated.value.actor !in g.actors)
    ensures activated.Some? && r.Some? && r.value.selected >= 0 ==>
              r.value.selected < |g.items| && g.actors[r.value.selected] == activated.value.actor
  {
    match activated
    case None => Some(g)
    case Some(item) => SelectIndex(g, IndexOfActor(g, item.actor))
  }

  /**
   * `_addDisplayItem`: appends a new child with a new actor for an id that is
   * not shown yet; a repeated id is ignored.
   */
  function AddDisplayItem(g: Grid, id: Id): (r: Grid)
    ensures r.selected == g.selected && id in r.items
    ensures id in g.items ==> r == g
    ensures id !in g.items ==> r.items == g.items + [id] && r.actors == g.actors + [g.created] && r.created == g.created + 1
    ensures Distinct(g.items) ==> Distinct(r.items)
    ensures Fresh(g) ==> Fresh(r)
  {
    if id in g.items then g
    else
      AppendDistinct(g.actors, g.created);
      MkGrid(g.items + [id], g.actors + [g.created], g.selected, g.created + 1)
  }

  /** Appending an element that is not there yet keeps a sequence without repeats. */
  lemma AppendDistinct<T>(s: seq<T>, x: T)
    ensures x !in s && Distinct(s) ==> Distinct(s + [x])
  {
  }

  /** Adds each id in turn, as the rebuild loops do. Every actor added is a new one. */
  function AddAll(g: Grid, ids: seq<Id>): (r: Grid)
    ensures r.selected == g.selected && g.created <= r.created
    ensures Distinct(g.items) ==> Distinct(r.items)
    ensures Distinct(g.items + ids) ==> r.items == g.items + ids
    ensures Fresh(g) ==> Fresh(r)
    ensures forall a :: a in r.actors ==> a in g.actors || g.created <= a
    decreases |ids|
  {
    if ids == [] then
      assert g.items + ids == g.items;
      g
    else
      var g1 := AddDisplayItem(g, ids[0]);
      AppendFresh(g.items, ids);
      AddAll(g1, ids[1..])
  }

  /** When `a + b` has no repeats, the head of `b` is not in `a` and moving it across keeps the whole. */
  lemma AppendFresh(a: seq<Id>, b: seq<Id>)
    requires b != []
    ensures Distinct(a + b) ==> b[0] !in a && (a + [b[0]]) + b[1..] == a + b
  {
    var both := a + b;
    assert (a + [b[0]]) + b[1..] == a + b;
    if Distinct(both) {
      assert both[|a|] == b[0];
      forall k | 0 <= k < |a| ensures a[k] != b[0] {
        assert both[k] == a[k];
      }
    }
  }

  /**
   * `_removeDisplayItem`: the selection is cleared when the last item goes,
   * moves up by one (a `selectUp` that cannot wrap) when an item above it goes,
   * and is otherwise left alone, even when the selected item itself is removed.
   * None when the id is not shown (`undefined.actor`) or the selection step raises.
   */
  function RemoveDisplayItem(g: Grid, id: Id): (r: Option<Grid>)
    ensures r.None? <==> id !in g.items || (HasSelected(g) && !InRange(g) && (|g.items| == 1 || Position(g.items, id) < g.selected))
    ensures r.Some? ==> var p := Position(g.items, id);
      && r.value.items == g.items[..p] + g.items[p + 1..]
      && r.value.actors == g.actors[..p] + g.actors[p + 1..]
      && r.value.created == g.created
    ensures r.Some? && Distinct(g.items) ==> Distinct(r.value.items) && id !in r.value.items
    ensures r.Some? && Fresh(g) ==> Fresh(r.value)
    ensures r.Some? && HasSelected(g) && |g.items| == 1 ==> r.value.selected == -1
    ensures r.Some? && HasSelected(g) && |g.items| != 1 && Position(g.items, id) < g.selected ==> r.value.selected == g.selected - 1
    ensures r.Some? && (!HasSelected(g) || (|g.items| != 1 && Position(g.items, id) >= g.selected)) ==> r.value.selected == g.selected
  {
    if id !in g.items then None
    else
      var p := Position(g.items, id);
      match SelectionAfterRemoval(g, p)
      case None => None
      case Some(selected) => Some(Without(g, p, selected))
  }

  /**
   * The index stored before the `p`-th child goes: the last child unsets the
   * selection, one above it moves it up, anything else leaves it. None when
   * the call made for that raises.
   */
  function SelectionAfterRemoval(g: Grid, p: nat): (r: Option<int>)
    ensures r.None? <==> HasSelected(g) && !InRange(g) && (|g.items| == 1 || p < g.selected)
    ensures r.Some? ==> r.value >= -1
    ensures r.Some? && HasSelected(g) && |g.items| == 1 ==> r.value == -1
    ensures r.Some? && HasSelected(g) && |g.items| != 1 && p < g.selected ==> r.value == g.selected - 1
    ensures r.Some? && (!HasSelected(g) || (|g.items| != 1 && p >= g.selected)) ==> r.value == g.selected
  {
    if HasSelected(g) && |g.items| == 1 then
      (match UnsetSelected(g) case None => None case Some(h) => Some(h.selected))
    else if HasSelected(g) && p < g.selected then
      (match SelectUp(g) case None => None case Some(u) => Some(u.0.selected))
    else Some(g.selected)
  }

  /** The grid without its `p`-th child, holding the selection given. */
  function Without(g: Grid, p: nat, selected: int): (r: Grid)
    requires p < |g.items| && selected >= -1
    ensures r.items == g.items[..p] + g.items[p + 1..] && r.actors == g.actors[..p] + g.actors[p + 1..]
    ensures r.selected == selected && r.created == g.created
    ensures Distinct(g.items) ==> Distinct(r.items) && g.items[p] !in r.items
    ensures Fresh(g) ==> Fresh(r)
  {
    var actors := g.actors[..p] + g.actors[p + 1..];
    RemoveFromDistinct(g.items, p);
    RemoveFromDistinct(g.actors, p);
    assert forall a :: a in actors ==> a in g.actors;
    MkGrid(g.items[..p] + g.items[p + 1..], actors, selected, g.created)
  }

  /** Removing the first child keeps the selection in range exactly when it was. */
  lemma RemoveFrontKeepsRange(g: Grid)
    requires g.items != []
    ensures var r := RemoveDisplayItem(g, g.items[0]);
            r.Some? ==> (InRange(r.value) <==> InRange(g))
  {
    assert Position(g.items, g.items[0]) == 0;
  }

  /**
   * `_removeAllDisplayItems`: removes the children front to back. It raises
   * exactly when there is a child and the stored index shows none; such an
   * index raises at the first removal and leaves the grid as it was. Otherwise the
   * selection ends as -1 once a child was removed, and an empty grid keeps
   * its stored index.
   */
  function RemoveAll(g: Grid): (r: Outcome<Grid>)
    ensures r.raised <==> g.items != [] && !InRange(g)
    ensures r.raised ==> r.state == g
    ensures r.state.created == g.created
    ensures Fresh(g) ==> Fresh(r.state)
    ensures !r.raised ==> r.state.items == [] && r.state.actors == []
    ensures !r.raised ==> r.state.selected == if g.items == [] then g.selected else -1
    decreases |g.items|
  {
    if g.items == [] then Outcome(g, false)
    else
      RemoveFrontKeepsRange(g);
      match RemoveDisplayItem(g, g.items[0])
      case None => Outcome(g, true)
      case Some(g1) => RemoveAll(g1)
  }

  /**
   * On an empty, unselected grid `selectDown` stores index 0, which shows no
   * item. From there `selectDown` and `selectUp` raise, and clearing the empty
   * grid keeps the 0.
   */
  lemma SelectDownOnEmpty()
    ensures var stuck: Grid := MkGrid([], [], 0, 0);
      && SelectDown(Empty) == Some((stuck, false))
      && HasSelected(stuck) && !InRange(stuck)
      && SelectDown(stuck).None? && SelectUp(stuck).None?
      && RemoveAll(stuck) == Outcome(stuck, false)
  {
  }

  /** `selectUp` and `selectDown` undo each other on an in-range selection, wrap flags included. */
  lemma SelectUpDownInverse(g: Grid)
    requires 0 <= g.selected < |g.items|
    ensures SelectUp(g).Some? && SelectDown(SelectUp(g).value.0) == Some((g, SelectUp(g).value.1))
    ensures SelectDown(g).Some? && SelectUp(SelectDown(g).value.0) == Some((g, SelectDown(g).value.1))
  {
  }

  function Down(g: Grid): Option<Grid> {
    match SelectDown(g)
    case None => None
    case Some(r) => Some(r.0)
  }

  function Up(g: Grid): Option<Grid> {
    match SelectUp(g)
    case None => None
    case Some(r) => Some(r.0)
  }

  /** One step down from the selection `x mod count` lands on `(x + 1) mod count`. */
  lemma DownStep(g: Grid, x: int)
    requires g.items != [] && g.selected == x % |g.items|
    ensures Down(g) == Some(g.(selected := (x + 1) % |g.items|))
  {
    ModSucc(x, |g.items|);
  }

  /** One step up from the selection `x mod count` lands on `(x - 1) mod count`. */
  lemma UpStep(g: Grid, x: int)
    requires g.items != [] && g.selected == x % |g.items|
    ensures Up(g) == Some(g.(selected := (x - 1) % |g.items|))
  {
    ModPred(x, |g.items|);
  }

  function SelectDownTimes(g: Grid, k: nat): Option<Grid> {
    if k == 0 then Some(g)
    else match SelectDownTimes(g, k - 1)
      case None => None
      case Some(h) => Down(h)
  }

  function SelectUpTimes(g: Grid, k: nat): Option<Grid> {
    if k == 0 then Some(g)
    else match SelectUpTimes(g, k - 1)
      case None => None
      case Some(h) => Up(h)
  }

  /** No step from an in-range selection leaves it where it is, and no step up or down raises. */
  lemma TimesZero(g: Grid, y: int)
    requires 0 <= g.selected < |g.items| && y == g.selected
    ensures SelectDownTimes(g, 0) == Some(g.(selected := y % |g.items|))
    ensures SelectUpTimes(g, 0) == Some(g.(selected := y % |g.items|))
  {
    assert y % |g.items| == g.selected;
  }

  /** The `k`-th step down from a grid whose selection sits at `x mod count`. */
  lemma DownTimesNext(g: Grid, k: nat, x: int, y: int)
    requires k > 0 && g.items != [] && y == x + 1
    requires SelectDownTimes(g, k - 1) == Some(g.(selected := x % |g.items|))
    ensures SelectDownTimes(g, k) == Some(g.(selected := y % |g.items|))
  {
    var h := g.(selected := x % |g.items|);
    assert SelectDownTimes(g, k) == Down(h);
    DownStep(h, x);
  }

  /** The `k`-th step up from a grid whose selection sits at `x mod count`. */
  lemma UpTimesNext(g: Grid, k: nat, x: int, y: int)
    requires k > 0 && g.items != [] && y == x - 1
    requires SelectUpTimes(g, k - 1) == Some(g.(selected := x % |g.items|))
    ensures SelectUpTimes(g, k) == Some(g.(selected := y % |g.items|))
  {
    var h := g.(selected := x % |g.items|);
    assert SelectUpTimes(g, k) == Up(h);
    UpStep(h, x);
  }

  /** Moving down `k` times from a selected item lands on index `(i + k) mod count`: navigation is cyclic and never raises. */
  lemma {:induction false} SelectDownCycle(g: Grid, k: nat)
    requires 0 <= g.selected < |g.items|
    ensures SelectDownTimes(g, k) == Some(g.(selected := (g.selected + k) % |g.items|))
  {
    if k > 0 {
      SelectDownCycle(g, k - 1);
      DownTimesNext(g, k, g.selected + (k - 1), g.selected + k);
    } else {
      TimesZero(g, g.selected + k);
    }
  }

  /** Moving up `k` times from a selected item lands on index `(i - k) mod count`. */
  lemma {:induction false} SelectUpCycle(g: Grid, k: nat)
    requires 0 <= g.selected < |g.items|
    ensures SelectUpTimes(g, k) == Some(g.(selected := (g.selected - k) % |g.items|))
  {
    if k > 0 {
      SelectUpCycle(g, k - 1);
      UpTimesNext(g, k, g.selected - (k - 1), g.selected - k);
    } else {
      TimesZero(g, g.selected - k);
    }
  }

  /** Removing any other item keeps the same display item selected, now at its shifted index. */
  lemma RemoveKeepsSelectedItem(g: Grid, id: Id)
    requires Distinct(g.items) && id in g.items
    requires 0 <= g.selected < |g.items| && g.items[g.selected] != id
    ensures var r := RemoveDisplayItem(g, id);
            && r.Some? && 0 <= r.value.selected < |r.value.items|
            && r.value.items[r.value.selected] == g.items[g.selected]
            && r.value.actors[r.value.selected] == g.actors[g.selected]
  {
    var p := Position(g.items, id);
    var r := RemoveDisplayItem(g, id).value;
    assert p != g.selected;
    if p < g.selected {
      assert r.items[g.selected - 1] == g.items[g.selected];
      assert r.actors[g.selected - 1] == g.actors[g.selected];
    } else {
      assert r.items[g.selected] == g.items[g.selected];
      assert r.actors[g.selected] == g.actors[g.selected];
    }
  }

  /** Removing the item just added restores the grid, save the actor count, whenever the selection was in range. */
  lemma AddRemoveInverse(g: Grid, id: Id)
    requires InRange(g) && id !in g.items
    ensures id in AddDisplayItem(g, id).items
    ensures RemoveDisplayItem(AddDisplayItem(g, id), id) == Some(g.(created := g.created + 1))
  {
    var a := AddDisplayItem(g, id);
    var n := |g.items|;
    assert a.items == g.items + [id] && a.actors == g.actors + [g.created];
    assert Position(a.items, id) == n;
    RemoveLast(a);
    assert a.items[..n] == g.items && a.actors[..n] == g.actors;
  }

  /** Removing the last child, when its id occurs nowhere before it, drops just that child and keeps an in-range selection. */
  lemma RemoveLast(a: Grid)
    requires a.items != [] && InRange(a) && a.selected < |a.items| - 1
    requires Position(a.items, a.items[|a.items| - 1]) == |a.items| - 1
    ensures var n := |a.items| - 1;
            RemoveDisplayItem(a, a.items[n]) == Some(MkGrid(a.items[..n], a.actors[..n], a.selected, a.created))
  {
    var n := |a.items| - 1;
    var r := RemoveDisplayItem(a, a.items[n]);
    assert r.Some?;
    assert a.items[n + 1..] == [] && a.actors[n + 1..] == [];
    assert a.items[..n] + a.items[n + 1..] == a.items[..n];
    assert a.actors[..n] + a.actors[n + 1..] == a.actors[..n];
  }

  /** Activating the selected item and then acting on it, with nothing in between, keeps the selection. */
  lemma ActivateThenDoActivate(g: Grid)
    requires Fresh(g) && 0 <= g.selected < |g.items|
    ensures ActivateSelected(g).Some? && DoActivate(g, ActivateSelected(g).value) == Some(g)
  {
    var item := FindDisplayedByIndex(g, g.selected);
    assert IndexOfActor(g, item.value.actor) == g.selected;
  }

  /**
   * A rebuild (remove every child, then add any ids) makes new actors, so an
   * item activated before it is no longer found: `doActivate` then stores -1.
   */
  lemma ActivatedItemLostByRebuild(g: Grid, ids: seq<Id>)
    requires Fresh(g) && 0 <= g.selected < |g.items|
    ensures var a := FindDisplayedByIndex(g, g.selected);
            var h := AddAll(RemoveAll(g).state, ids);
            && a.Some? && !RemoveAll(g).raised
            && IndexOfActor(h, a.value.actor) == -1
            && h.selected == -1
            && DoActivate(h, a) == Some(h.(selected := -1))
  {
    var a := g.actors[g.selected];
    assert a in g.actors;
  }
}

=== FILE: seqs.dfy ===
/** Small facts about sequences shared by the display modules. */
module Seqs {

  /** No element occurs twice. */
  predicate Distinct<T(==)>(s: seq<T>) {
    forall i, j :: 0 <= i < j < |s| ==> s[i] != s[j]
  }

  /** The index of the first occurrence of `x` in `s`. */
  function Position<T(==)>(s: seq<T>, x: T): (p: nat)
    requires x in s
    ensures p < |s| && s[p] == x
    ensures forall j :: 0 <= j < p ==> s[j] != x
  {
    if s[0] == x then 0 else 1 + Position(s[1..], x)
  }

  /** The first `n` elements of `s`, or all of `s` when it is shorter. */
  function Take<T>(s: seq<T>, n: nat): (r: seq<T>)
    ensures |r| == if n < |s| then n else |s|
    ensures r == s[..|r|]
  {
    if n < |s| then s[..n] else s
  }

  /** A distinct sequence with one element removed stays distinct and loses exactly that element. */
  lemma RemoveFromDistinct<T>(s: seq<T>, p: nat)
    requires p < |s|
    ensures forall x :: x in s[..p] + s[p + 1..] ==> x in s
    ensures Distinct(s) ==> Distinct(s[..p] + s[p + 1..])
    ensures Distinct(s) ==> forall x :: x in s[..p] + s[p + 1..] <==> x in s && x != s[p]
  {
    var r := s[..p] + s[p + 1..];
    assert forall i :: 0 <= i < |r| ==> r[i] == if i < p then s[i] else s[i + 1];
    forall x | x in s && x != s[p]
      ensures x in r
    {
      var k :| 0 <= k < |s| && s[k] == x;
      if k < p {
        assert r[k] == x;
      } else {
        assert r[k - 1] == x;
      }
    }
  }
}

=== FILE: sorting.dfy ===
/**
 * A stable insertion sort over an arbitrary ordering, used for the ranking
 * `Array.prototype.sort` performs on the matched items.
 */
module Sorting {
  import opened Seqs

  /** `le` is total and transitive: a total preorder (ties allowed). */
  ghost predicate TotalPreorder<T(!new)>(le: (T, T) -> bool) {
    && (forall x, y :: le(x, y) || le(y, x))
    && (forall x, y, z :: le(x, y) && le(y, z) ==> le(x, z))
  }

  predicate Sorted<T>(s: seq<T>, le: (T, T) -> bool) {
    forall i, j :: 0 <= i < j < |s| ==> le(s[i], s[j])
  }

  /** Puts `x` in front of the first element it does not come after. */
  function Insert<T>(x: T, s: seq<T>, le: (T, T) -> bool): (r: seq<T>)
    ensures multiset(r) == multiset(s) + multiset{x}
    ensures |r| == |s| + 1
  {
    if s == [] || le(x, s[0]) then [x] + s
    else
      assert s == [s[0]] + s[1..];
      [s[0]] + Insert(x, s[1..], le)
  }

  /** Insertion sort; on ties the element that came first stays first. */
  function Sort<T>(s: seq<T>, le: (T, T) -> bool): (r: seq<T>)
    ensures multiset(r) == multiset(s)
    ensures |r| == |s|
  {
    if s == [] then []
    else
      assert s == [s[0]] + s[1..];
      Insert(s[0], Sort(s[1..], le), le)
  }

  lemma {:induction false} InsertSorted<T(!new)>(x: T, s: seq<T>, le: (T, T) -> bool)
    requires TotalPreorder(le)
    requires Sorted(s, le)
    ensures Sorted(Insert(x, s, le), le)
    decreases |s|
  {
    if s != [] && !le(x, s[0]) {
      var tail := Insert(x, s[1..], le);
      InsertSorted(x, s[1..], le);
      forall k | 0 <= k < |tail|
        ensures le(s[0], tail[k])
      {
        assert tail[k] in multiset(tail);
        if tail[k] != x {
          assert tail[k] in multiset(s[1..]);
          var m :| 0 <= m < |s[1..]| && s[1..][m] == tail[k];
          assert s[m + 1] == tail[k];
        }
      }
    }
  }

  /** The sort yields a sorted permutation of its input. */
  lemma {:induction false} SortSorted<T(!new)>(s: seq<T>, le: (T, T) -> bool)
    requires TotalPreorder(le)
    ensures Sorted(Sort(s, le), le)
    ensures multiset(Sort(s, le)) == multiset(s)
    decreases |s|
  {
    if s != [] {
      SortSorted(s[1..], le);
      InsertSorted(s[0], Sort(s[1..], le), le);
    }
  }

  lemma {:induction false} InsertDistinct<T>(x: T, s: seq<T>, le: (T, T) -> bool)
    requires Distinct(s) && x !in s
    ensures Distinct(Insert(x, s, le))
    decreases |s|
  {
    if s != [] && !le(x, s[0]) {
      InsertDistinct(x, s[1..], le);
      var tail := Insert(x, s[1..], le);
      assert s[0] !in s[1..];
      assert s[0] !in multiset(tail);
    }
  }

  /** Sorting a list without repeats gives a list without repeats. */
  lemma {:induction false} SortDistinct<T>(s: seq<T>, le: (T, T) -> bool)
    requires Distinct(s)
    ensures Distinct(Sort(s, le))
    decreases |s|
  {
    if s != [] {
      SortDistinct(s[1..], le);
      assert s[0] !in s[1..];
      assert s[0] !in multiset(Sort(s[1..], le));
      InsertDistinct(s[0], Sort(s[1..], le), le);
    }
  }

  /** Every element of a prefix of a sorted sequence may come before every element left out of it. */
  lemma SortedPrefixFirst<T>(s: seq<T>, k: nat, le: (T, T) -> bool)
    requires Sorted(s, le) && k <= |s|
    ensures forall x, y :: x in s[..k] && y in s && y !in s[..k] ==> le(x, y)
  {
    forall x, y | x in s[..k] && y in s && y !in s[..k]
      ensures le(x, y)
    {
      var i :| 0 <= i < k && s[i] == x;
      var j :| 0 <= j < |s| && s[j] == y;
    }
  }
}

=== FILE: text.dfy ===
/**
 * The string operations the search relies on: JavaScript's `\s` class,
 * an ASCII stand-in for `toLowerCase`, `indexOf`, and `split(/\s+/)`.
 */
module Text {

  /** True when `c` is matched by the regular-expression class `\s` (white space and line terminators). */
  predicate IsSpace(c: char) {
    var n := c as int;
    || n == 0x09 || n == 0x0A || n == 0x0B || n == 0x0C || n == 0x0D || n == 0x20
    || n == 0xA0 || n == 0x1680 || n == 0x180E || (0x2000 <= n <= 0x200A)
    || n == 0x2028 || n == 0x2029 || n == 0x202F || n == 0x205F || n == 0x3000 || n == 0xFEFF
  }

  predicate NoSpace(s: string) {
    forall i :: 0 <= i < |s| ==> !IsSpace(s[i])
  }

  predicate IsUpper(c: char) {
    'A' <= c <= 'Z'
  }

  function LowerChar(c: char): (d: char)
    ensures !IsUpper(d)
    ensures IsSpace(d) <==> IsSpace(c)
  {
    if IsUpper(c) then (c as int + 32) as char else c
  }

  /** `toLowerCase`, restricted to the ASCII letters. */
  function Lower(s: string): (r: string)
    ensures |r| == |s|
    ensures forall i :: 0 <= i < |s| ==> r[i] == LowerChar(s[i])
    ensures forall i :: 0 <= i < |r| ==> !IsUpper(r[i])
    ensures forall i :: 0 <= i < |s| ==> (r[i] == s[i] <==> !IsUpper(s[i]))
    ensures forall i :: 0 <= i < |s| ==> IsUpper(s[i]) ==> r[i] as int == s[i] as int + 32
  {
    seq(|s|, i requires 0 <= i < |s| => LowerChar(s[i]))
  }

  /** `t` occurs in `s` starting at index `i`. */
  predicate OccursAt(t: string, s: string, i: nat) {
    i + |t| <= |s| && s[i..i + |t|] == t
  }

  ghost predicate IsSubstring(t: string, s: string) {
    exists i: nat :: OccursAt(t, s, i)
  }

  /** The first occurrence of `t` in `s` at or after `from`, or -1. */
  function IndexFrom(s: string, t: string, from: nat): (r: int)
    ensures r == -1 || (from <= r && OccursAt(t, s, r))
    ensures r == -1 ==> forall j: nat :: from <= j ==> !OccursAt(t, s, j)
    ensures r >= 0 ==> forall j: nat :: from <= j < r ==> !OccursAt(t, s, j)
    decreases |s| - from
  {
    if from + |t| > |s| then -1
    else if s[from..from + |t|] == t then from
    else IndexFrom(s, t, from + 1)
  }

  /** `s.indexOf(t)`: the first occurrence of `t` in `s`, or -1 when there is none. */
  function IndexOf(s: string, t: string): (r: int)
    ensures r >= 0 <==> IsSubstring(t, s)
    ensures r >= 0 ==> OccursAt(t, s, r) && forall j: nat :: j < r ==> !OccursAt(t, s, j)
    ensures r < 0 ==> r == -1
  {
    var r := IndexFrom(s, t, 0);
    if r >= 0 then
      r
    else
      assert forall j: nat :: !OccursAt(t, s, j);
      r
  }

  /** The empty string occurs in every string; a non-empty one never occurs in the empty string. */
  lemma EmptySubstring(s: string, t: string)
    ensures IsSubstring([], s)
    ensures t != [] ==> !IsSubstring(t, [])
  {
    assert OccursAt([], s, 0);
  }

  /** Drops the leading run of white space. */
  function SkipSpaces(s: string): (r: string)
    ensures |r| <= |s| && r == s[|s| - |r|..]
    ensures r == [] || !IsSpace(r[0])
    ensures forall i :: 0 <= i < |s| - |r| ==> IsSpace(s[i])
  {
    if s != [] && IsSpace(s[0]) then SkipSpaces(s[1..]) else s
  }

  /**
   * What `split(/\s+/)` can return: at least one term, no term holding white
   * space, and only the first and the last term possibly empty.
   */
  predicate Terms(ts: seq<string>) {
    && |ts| >= 1
    && (forall i :: 0 <= i < |ts| ==> NoSpace(ts[i]))
    && (forall i :: 0 < i < |ts| - 1 ==> ts[i] != [])
  }

  /**
   * `s.split(/\s+/)`: cut at every maximal run of white space. A leading
   * (trailing) run yields an empty first (last) term; the empty string
   * yields one empty term.
   */
  function Split(s: string): (r: seq<string>)
    ensures Terms(r)
    ensures r[0] == [] <==> s == [] || IsSpace(s[0])
    ensures s != [] && IsSpace(s[0]) ==> |r| >= 2
    decreases |s|
  {
    if s == [] then [[]]
    else if IsSpace(s[0]) then [[]] + Split(SkipSpaces(s))
    else
      var rest := Split(s[1..]);
      [[s[0]] + rest[0]] + rest[1..]
  }

  /**
   * What the terms hold: joined with single spaces they give `s` with every
   * run of white space collapsed, so no character is lost or invented.
   */
  lemma {:induction false} SplitContent(s: string)
    ensures Join(Split(s)) == Collapse(s)
    decreases |s|
  {
    if s == [] {
    } else if IsSpace(s[0]) {
      SplitContent(SkipSpaces(s));
    } else {
      SplitContent(s[1..]);
      JoinConsHead(s[0], Split(s[1..]));
    }
  }

  /** The last term is empty exactly when `s` ends with white space (or is empty). */
  lemma {:induction false} SplitLastTerm(s: string)
    ensures var r := Split(s); r[|r| - 1] == [] <==> s == [] || IsSpace(s[|s| - 1])
    decreases |s|
  {
    if s == [] {
    } else if IsSpace(s[0]) {
      var t := SkipSpaces(s);
      SplitLastTerm(t);
      assert t != [] ==> t[|t| - 1] == s[|s| - 1];
    } else {
      SplitLastTerm(s[1..]);
    }
  }

  /** `s` with every maximal run of white space replaced by one `' '`. */
  function Collapse(s: string): (r: string)
    decreases |s|
  {
    if s == [] then []
    else if IsSpace(s[0]) then [' '] + Collapse(SkipSpaces(s))
    else [s[0]] + Collapse(s[1..])
  }

  /** Putting a character in front of the first term puts it in front of the joined string. */
  lemma JoinConsHead(c: char, ts: seq<string>)
    requires |ts| >= 1
    ensures Join([[c] + ts[0]] + ts[1..]) == [c] + Join(ts)
  {
    var us := [[c] + ts[0]] + ts[1..];
    if |ts| > 1 {
      assert us[1..] == ts[1..];
    }
  }

  /** The terms separated by single spaces. */
  function Join(ts: seq<string>): string
    requires |ts| >= 1
  {
    if |ts| == 1 then ts[0] else ts[0] + [' '] + Join(ts[1..])
  }

  lemma {:induction false} SplitAfterWord(w: string, s: string)
    requires NoSpace(w)
    ensures Split(w + s) == [w + Split(s)[0]] + Split(s)[1..]
    decreases |w|
  {
    var r := Split(s);
    if w == [] {
      assert w + s == s;
      assert w + r[0] == r[0];
      assert [r[0]] + r[1..] == r;
    } else {
      assert (w + s)[0] == w[0] && !IsSpace(w[0]);
      assert (w + s)[1..] == w[1..] + s;
      SplitAfterWord(w[1..], s);
      assert [w[0]] + (w[1..] + r[0]) == w + r[0];
    }
  }

  /** One space in front of a string that does not start with white space adds an empty first term. */
  lemma SplitAfterSpace(j: string)
    requires j == [] || !IsSpace(j[0])
    ensures Split([' '] + j) == [[]] + Split(j)
  {
    var sp := [' '] + j;
    assert sp[1..] == j;
    assert SkipSpaces(j) == j;
  }

  lemma JoinHead(ts: seq<string>)
    requires |ts| >= 1 && ts[0] != []
    ensures Join(ts) != [] && Join(ts)[0] == ts[0][0]
  {
  }

  /** Splitting undoes joining: every list `split` can return is recovered from its joined form. */
  lemma {:induction false} SplitJoin(ts: seq<string>)
    requires Terms(ts)
    ensures Split(Join(ts)) == ts
    decreases |ts|
  {
    if |ts| == 1 {
      SplitAfterWord(ts[0], []);
      assert ts[0] + [] == ts[0];
    } else {
      var tail := ts[1..];
      assert Terms(tail) by {
        assert forall i :: 0 < i < |tail| - 1 ==> tail[i] == ts[i + 1];
      }
      SplitJoin(tail);
      SplitJoinStep(ts);
    }
  }

  /** The inductive step of `SplitJoin`: a term, a space, and a joined tail that splits back. */
  lemma SplitJoinStep(ts: seq<string>)
    requires Terms(ts) && |ts| >= 2
    requires Split(Join(ts[1..])) == ts[1..]
    ensures Split(Join(ts)) == ts
  {
    var tail := ts[1..];
    JoinedTailStart(ts);
    assert NoSpace(ts[0]);
    SplitWordSpace(ts[0], Join(tail), tail);
    assert [ts[0]] + tail == ts;
  }

  /** A word, one space and a string that does not start with white space split into the word and the string's terms. */
  lemma SplitWordSpace(w: string, j: string, tail: seq<string>)
    requires NoSpace(w) && (j == [] || !IsSpace(j[0])) && Split(j) == tail
    ensures Split(w + [' '] + j) == [w] + tail
  {
    var sp := [' '] + j;
    SplitAfterSpace(j);
    SplitAfterWord(w, sp);
    assert w + [' '] + j == w + sp;
    assert w + [] == w;
  }

  /** The joined tail of a term list does not start with white space. */
  lemma JoinedTailStart(ts: seq<string>)
    requires Terms(ts) && |ts| >= 2
    ensures var j := Join(ts[1..]); j == [] || !IsSpace(j[0])
  {
    var tail := ts[1..];
    if tail[0] != [] {
      JoinHead(tail);
      assert !IsSpace(tail[0][0]);
    } else {
      assert |ts| == 2;
    }
  }
}

=== FILE: wrappers.dfy ===
/** The optional value the source represents by `null` (or `undefined`). */
module Wrappers {

  datatype Option<+T> = None | Some(value: T)
}
